=== FILE: README.md ===
# AIM core: utilities, two CloudFormation templates and the Route53 controller

This project models the following parts of AIM, the tool that turns a YAML project description into CloudFormation stacks:

- **String and mapping helpers** of `aim.utils` (module `Utils`):
  - `dict_of_dicts_merge`, the recursive merge of nested configuration dictionaries;
  - `str_spc`, fixed-width padding;
  - `big_join` and `list_to_comma_string`, the separator joins;
  - the returned line of `log_action`.
- **The Python string primitives** these rely on (module `Strings`):
  - `sep.join`, which the joins are specified against;
  - `str.split` with a one-character separator;
  - the code-point order that `sorted()` uses on names.
- **The `SecurityGroups` template** (module `SecurityGroups`):
  - one security-group resource per configured group, in sorted name order;
  - after each group, its ingress rules and then its egress rules;
  - one output per group;
  - the two helpers that read security-group references.
- **The `IAMManagedPolicies` template** (module `IamManagedPolicies`):
  - one managed-policy resource and one output per policy context;
  - the optional `Parameters:` section;
  - the statement list with its quoting rule;
  - the policy name, the logical-name prefix and the two ARN builders.
- **The Route53 controller** (module `Route53Controller`):
  - construction;
  - the one-time `init` guarded by `init_done`;
  - the stack-group build guarded by `second`;
  - the `validate`/`provision`/`delete` walks;
  - the lookup that answers `id` references to hosted zones.

Python exceptions become `Result` failures (`Wrappers`), one error constructor per `raise` or implicit `TypeError`/`IndexError`/`AttributeError`.

The controller's mutable attributes become an immutable record. Each operation returns the next record together with the exception it raised, because attributes set before a `raise` stay set.

Templates are modelled structurally: each resource and output appears in the order the YAML text lists them, with the fields that text fills in.

Context services whose code is outside this model are parameters:

- `normalize_name` and `normalized_join`: function-valued fields of `Naming` and `Context`;
- the account id: a field of `Naming`;
- `parse_ref`: its output, `ParsedRef`;
- `legacy_flag`: a boolean.

## Model

| member | source | states |
|---|---|---|
| `Utils.Merge` | src/aim/utils/__init__.py:35-47 | A non-mapping side yields `y`. Two mappings merge to a mapping on the union of their keys. A key only one side has keeps that side's value. |
| `Utils.MergeOverlap` | src/aim/utils/__init__.py:40-42 | A key both mappings have holds the recursive merge of the two values. |
| `Utils.MergeRightWinsAtLeaves` | src/aim/utils/__init__.py:35-47 | At every path where `y` holds a non-mapping value, the merge holds that same value: the right side wins. |
| `Utils.MergeIdempotent` | src/aim/utils/__init__.py:35-47 | Merging a configuration with itself gives it back unchanged. |
| `Utils.StrSpc` | src/aim/utils/__init__.py:49-61 | Fails, with the length and size, exactly when the string is longer than the size; this includes every negative size. Otherwise the result is exactly `size` long, starts with the string and is spaces after it. |
| `Utils.EmittedPlain` | src/aim/utils/__init__.py:74-75 | Without camel case and without `None` items, the emitted items are the items themselves, one for one. |
| `Utils.Capitalize` | src/aim/utils/__init__.py:73 | `item[0].upper() + item[1:]` on a non-empty item: the first character upper-cased (ASCII letters only), the rest kept, the length unchanged. |
| `Utils.EmittedCamel` | src/aim/utils/__init__.py:72-73 | With camel case, each emitted item is the plain item with its first character upper-cased; there are as many as without camel case. |
| `Utils.EmitNext` | src/aim/utils/__init__.py:67-76 | The loop body for an item that does not raise: afterwards the text is the join of the items emitted so far, and `first` holds exactly when none has been emitted. |
| `Utils.EmitStep` | src/aim/utils/__init__.py:67-76 | One loop step: a skipped `None` adds nothing. Any other item appends the separator (unless it is the first item) and the item, which keeps the text equal to the join of what has been emitted. |
| `Utils.BigJoin` | src/aim/utils/__init__.py:63-77 | Succeeds exactly when no item is a `None` that is not skipped and, under camel case, no item is empty. A failure names the first such item and which error it raises. A success is the separator-join of the non-`None` items, capitalised under camel case. |
| `Utils.ListToCommaString` | src/aim/utils/__init__.py:98-105 | The items joined with `,` between neighbours; `""` for no items. |
| `Utils.LogAction` | src/aim/utils/__init__.py:89-96 | Returns a line exactly when asked to. The line is `action: message`, prefixed with `! Disabled: ` exactly when disabled. |
| `Utils.LogActionDisabledMarks` | src/aim/utils/__init__.py:91-92 | A disabled action's line is exactly the `! Disabled: ` marker followed by the line the enabled action would give. |
| `Strings.Split` | src/aim/cftemplates/security_groups.py:152-156 | `str.split(c)` always yields at least one part, and no part contains the separator. |
| `Strings.SplitThenJoin` | src/aim/cftemplates/security_groups.py:152-156 | Joining the parts of a split with the separator gives the original string: splitting loses nothing. |
| `Strings.JoinThenSplit` | src/aim/utils/__init__.py:98-105 | A non-empty comma-joined list of comma-free items splits back into exactly that list, so for such lists the comma string determines the list. The empty list is excluded because `[]` and `[""]` both give `""`. |
| `Strings.JoinLength` | src/aim/utils/__init__.py:67-77 | A join of n items is as long as the items together plus n - 1 separators. |
| `Strings.JoinEnds` | src/aim/utils/__init__.py:70-76 | The separator never leads or trails: a non-empty join starts with its first item and ends with its last. |
| `Strings.SortedNames` | src/aim/cftemplates/security_groups.py:75 | `sorted()` of the group names: every name exactly once, nothing else, strictly increasing in code-point order. |
| `SecurityGroups.GetLocalSgRef` | src/aim/cftemplates/security_groups.py:151-157 | Succeeds exactly when the first space token is `netenv.ref` and a second token with at least two `.`-segments follows. The result is that token's second-to-last segment, and it contains neither `.` nor a space. |
| `SecurityGroups.LocalSgRefOfPath` | src/aim/cftemplates/security_groups.py:151-157 | For every reference `netenv.ref a.b.….y.z` built from plain segments, the result is `y`. |
| `SecurityGroups.OutputsKeyOfGroupRef` | src/aim/cftemplates/security_groups.py:159-177 | The partner of the key reader: any `subenv`/`network` reference whose parts 5 to 8 are `vpc`, `security_groups`, a group and an id yields that id, whatever the other parts. |
| `SecurityGroups.GetOutputsKeyFromRef` | src/aim/cftemplates/security_groups.py:159-177 | Succeeds exactly when the reference has at least nine parts, the `subenv` and `network` components, and `vpc` then `security_groups` at parts 5 and 6. The key is then part 8. A short reference raises the index error before any other check. |
| `SecurityGroups.RuleResource` | src/aim/cftemplates/security_groups.py:104-135 | A rule's resource exists exactly when it has a CIDR block or a readable source group. A rule with neither raises. The rule name is group + type + rule name. A CIDR block wins over a source group. Each port is present exactly when configured. |
| `SecurityGroups.RuleResources` | src/aim/cftemplates/security_groups.py:104-135 | All rules of one list, in order, each owned by the group. Otherwise the error of the first rule that fails, every earlier rule having succeeded. |
| `SecurityGroups.GroupResources` | src/aim/cftemplates/security_groups.py:76-135 | A group's block: its security-group resource, with the normalized group name and the fixed description, followed by one rule resource per configured rule, all owned by the group. It succeeds exactly when every rule is usable. |
| `SecurityGroups.GroupRulesInOrder` | src/aim/cftemplates/security_groups.py:96-135 | A group's rule resources are its ingress rules in configuration order, then its egress rules in configuration order. |
| `SecurityGroups.GroupName` | src/aim/cftemplates/security_groups.py:84-90 | The group's `GroupName`: the context's normalized join of the network environment id, sub-environment id, group-set id and group name, with an empty separator and the flag set. |
| `SecurityGroups.GroupBlocks` | src/aim/cftemplates/security_groups.py:75-138 | One block per name, in the order of the names. It succeeds exactly when every named group is usable. |
| `SecurityGroups.BuildTemplate` | src/aim/cftemplates/security_groups.py:71-145 | The template exists exactly when every rule of every group is usable. Its outputs are the configured group names, each once, in strictly increasing order. |
| `SecurityGroups.TemplateParts` | src/aim/cftemplates/security_groups.py:75-138 | A successful template is the concatenation, in sorted name order, of each configured group's block. |
| `SecurityGroups.TemplateGroupOrder` | src/aim/cftemplates/security_groups.py:75-138 | The group resources appear in the same order as the outputs. |
| `SecurityGroups.TemplateRules` | src/aim/cftemplates/security_groups.py:75-135 | In the whole template, the rules of a configured group are exactly its ingress rules then its egress rules, in configuration order; a name that is not a group has no rules. |
| `IamManagedPolicies.GenStatementYaml` | src/aim/cftemplates/iam_managed_policies.py:144-176 | One block per statement, in order, with the statement's effect. Every action is quoted. A resource is left bare exactly when it starts with `!`. |
| `IamManagedPolicies.ItemLine` | src/aim/cftemplates/iam_managed_policies.py:156-159 | A list-item line is `- ` followed by the text, wrapped in single quotes exactly when the item is quoted. |
| `IamManagedPolicies.StatementYamlRoundTrip` | src/aim/cftemplates/iam_managed_policies.py:156-172 | The blocks give back the statements they came from. Every rendered list-item line reads back as the item it renders, so the quoting is unambiguous. |
| `IamManagedPolicies.RemoveChar` | src/aim/cftemplates/iam_managed_policies.py:140 | `replace(c, '')` leaves no `c` and keeps every other character as often as it occurs. A string without `c` is unchanged. |
| `IamManagedPolicies.RemoveCharAppend` | src/aim/cftemplates/iam_managed_policies.py:140 | Removal distributes over concatenation, so the kept characters stay in their original order. |
| `IamManagedPolicies.GenPolicyName` | src/aim/cftemplates/iam_managed_policies.py:133-136 | The policy name is `normalize_name` applied to the IAM context id, a `-`, and the policy id, with `-` as separator and the flag off. |
| `IamManagedPolicies.CfResourceNamePrefix` | src/aim/cftemplates/iam_managed_policies.py:138-140 | The logical-name prefix contains no `-`. |
| `IamManagedPolicies.PolicyArnFromId` | src/aim/cftemplates/iam_managed_policies.py:178-180 | The ARN is `arn:aws:iam::`, the account id, `:policy/` and the policy name, each at its position. |
| `IamManagedPolicies.ArnDeterminesName` | src/aim/cftemplates/iam_managed_policies.py:133-136 | Within one account, equal ARNs have equal policy names. |
| `IamManagedPolicies.PolicyArnFromRef` | src/aim/cftemplates/iam_managed_policies.py:182-185 | Succeeds exactly when the reference has at least seven parts; otherwise it is the index error. |
| `IamManagedPolicies.ArnFromRefMatchesId` | src/aim/cftemplates/iam_managed_policies.py:178-185 | A reference yields the same ARN as its seventh part used as a policy id. |
| `IamManagedPolicies.AllParamsEmpty` | src/aim/cftemplates/iam_managed_policies.py:119-123 | The collected parameters are empty exactly when no policy context brings any. |
| `IamManagedPolicies.AddParameters` | src/aim/cftemplates/iam_managed_policies.py:95-97 | Each parameter of a context is appended to the template's parameters, and its key and value to the stack's, which stay paired position by position. |
| `IamManagedPolicies.CollectParameters` | src/aim/cftemplates/iam_managed_policies.py:93-97 | The parameters of all policy contexts, in order, paired with the stack parameters set from them. |
| `IamManagedPolicies.PolicyResourceOf` | src/aim/cftemplates/iam_managed_policies.py:99-115 | The resource for one policy context: its logical name contains no `-` and ends in `ManagedPolicy`, the suffix the resource format at line 48 adds. Its name is the generated policy name. Path and roles come from the configuration, and there is one statement block per configured statement, each with the same effect. |
| `IamManagedPolicies.CollectResources` | src/aim/cftemplates/iam_managed_policies.py:99-117 | One resource per policy context, in order, each with the context's name, prefix, path, statements and roles. Each output is its resource's logical name. |
| `IamManagedPolicies.BuildPolicyTemplate` | src/aim/cftemplates/iam_managed_policies.py:91-126 | The `Parameters:` header is present exactly when some context brings a parameter. The section lists every parameter in order, each paired with its stack parameter. There is one resource and one output per context, in order. |
| `Route53Controller.Construct` | src/aim/controllers/ctl_route53.py:8-29 | The controller type follows the legacy flag. Without a `route53` entry the controller is finished and has no other attributes. Otherwise it is unfinished, with no stack groups, `second` unset, and the configuration (possibly `None`). |
| `Route53Controller.ConstructConsistent` | src/aim/controllers/ctl_route53.py:8-29 | Every constructed controller satisfies the built-once invariant. |
| `Route53Controller.MissingInitIsNoop` | src/aim/controllers/ctl_route53.py:18-33 | Without a `route53` entry, `init` changes nothing and raises nothing. |
| `Route53Controller.Init` | src/aim/controllers/ctl_route53.py:31-38 | A finished controller is left alone. A `None` configuration raises before `init_done` is set. Otherwise `init_done` is set and the stack groups are built. |
| `Route53Controller.InitIdempotent` | src/aim/controllers/ctl_route53.py:31-35 | After an `init` that raised nothing, the controller is finished and a second `init` changes nothing. |
| `Route53Controller.InitStackGroups` | src/aim/controllers/ctl_route53.py:40-51 | A second call raises and changes nothing. A first call sets `second` and then appends one group per account. With a `None` configuration it raises after setting `second`, and the groups stay as they were. |
| `Route53Controller.SecondSticks` | src/aim/controllers/ctl_route53.py:31-44 | Once `second` is set, it stays set after any sequence of `init` and `init_stack_groups` calls, whichever of them raise. |
| `Route53Controller.InitStackGroupsAtMostOnce` | src/aim/controllers/ctl_route53.py:40-44 | After a call that passed the `second` check, and after any sequence of further calls, `init_stack_groups` raises and changes nothing. |
| `Route53Controller.GroupsFor` | src/aim/controllers/ctl_route53.py:45-51 | One stack group per hosted-zone account name, in order. Each holds exactly the zones configured for its account; this is the model's assumption about the stack group (see below). |
| `Route53Controller.InitBuildsOneGroupPerAccount` | src/aim/controllers/ctl_route53.py:31-51 | Constructing and initialising a configured controller raises nothing and leaves exactly one group per account name. |
| `Route53Controller.StepsKeepConsistent` | src/aim/controllers/ctl_route53.py:31-51 | `init` and `init_stack_groups` preserve the built-once invariant, whether or not they raise. |
| `Route53Controller.StackGroupsBuiltOnce` | src/aim/controllers/ctl_route53.py:40-51 | After any sequence of `init` and `init_stack_groups` calls, with their exceptions caught, the stack groups are either none or exactly one per account: never duplicated. |
| `Route53Controller.Provision` | src/aim/controllers/ctl_route53.py:53-59 | `validate` and `provision` visit exactly the stack groups, in list order. Without a `route53` entry the attribute is missing. |
| `Route53Controller.Reverse` | src/aim/controllers/ctl_route53.py:62 | `reversed`: the same length, with the element at position `i` taken from the mirrored position. |
| `Route53Controller.Delete` | src/aim/controllers/ctl_route53.py:61-63 | `delete` fails exactly when `provision` does, and visits the groups last to first. |
| `Route53Controller.DeleteUndoesProvisionOrder` | src/aim/controllers/ctl_route53.py:53-63 | `delete` visits the same groups as `provision`, in the opposite order. |
| `Route53Controller.FindStack` | src/aim/controllers/ctl_route53.py:65-69 | There is no stack exactly when no group holds the zone. Otherwise the stack is the first such group's stack for that zone. |
| `Route53Controller.FindStackAt` | src/aim/controllers/ctl_route53.py:65-69 | If group `k` is the first to hold the zone, the lookup returns group `k`'s stack. |
| `Route53Controller.GetStack` | src/aim/controllers/ctl_route53.py:65-69 | Fails exactly when the controller has no `stack_grps` attribute (no `route53` entry); otherwise it is the first-match lookup over them. |
| `Route53Controller.ResolveRef` | src/aim/controllers/ctl_route53.py:71-76 | A reference not ending in `id` resolves to nothing. An `id` reference looks up its third part; with fewer than three parts it raises. |
| `Route53Controller.ResolveConfiguredZone` | src/aim/controllers/ctl_route53.py:65-76 | After `init`, every `id` reference with at least three parts whose third part is a configured zone resolves to the stack of the first account, in account-name order, that has that zone. |

## Left out

- `md5sum`, `prefixed_name` and the other `aim.utils` helpers are not modelled: they do file I/O or walk the object model.
- `log_action` prints its line when it is not asked to return it. The model returns `None` there and leaves out the printing.
- `Utils.BigJoin`: capitalisation is ASCII only (`a`–`z`), whereas Python's `str.upper()` covers all of Unicode.
- `Utils.Capitalize` and `Utils.EmittedCamel`: upper-casing is ASCII only, so `é` and `ß` are left as they are. Python's `upper()` also changes non-ASCII letters and can turn one character into several (`'ßa'` becomes `'SSa'`). So `|Capitalize(s)| == |s|` holds of the model only, and the camel-case contracts describe the ASCII case.
- `Utils.Merge`: `deepcopy` is not modelled. Values are immutable here, so a copy and the original cannot be told apart.
- `Utils.Merge`: the merged dict is a map, so its key order is not modelled. Python inserts the overlapping keys first, then the keys only `x` has, then the keys only `y` has.
- `normalize_name`, `normalized_join`, `parse_ref` and `legacy_flag` are parameters whose definitions are outside this model.
  - So `IamManagedPolicies.GenPolicyName` only pins down the string passed to `normalize_name`. Its other properties are stated through `PolicyArnFromId` and `ArnDeterminesName`.
- The fixed template text is not modelled: headers, `AWSTemplateFormatVersion`, indentation, the YAML framing of parameters and outputs, and IAM capabilities.
  - The model keeps the fields that text fills in.
  - Of the IAM YAML it keeps the list-item lines, whose quoting carries meaning.
- `IamManagedPolicies.GenStatementYaml`: a single quote inside a quoted action or resource is not escaped, as in the source. The round trip is therefore stated on the item lines, and for the YAML document it holds only for quote-free items.
- `set_parameter` is modelled as appending. Whatever the stack does with a repeated key is outside this model.
- A `template_params` that is `None` or empty is the empty list in the model; Python's truthiness test skips both.
- A policy context without a `template_params` key raises `KeyError` at the truthiness test. The model's `PolicyContext` always carries the field, so that error is not modelled; the contexts are built outside this model.
- Route53:
  - `Route53StackGroup` is abstracted to its account and the set of hosted-zone ids it holds a stack for. `has_zone_id` is membership in that set, and `get_stack` is the stack for that account and zone.
  - `get_account_context` is outside this model.
  - What `validate`, `provision` and `delete` do to each stack group is not modelled; only the groups they visit and the order are.
  - The `log_action_col` calls during `init` and the `resolve_ref_obj` back-reference the controller sets on its configuration are not modelled. `init` raising on a `None` configuration at that assignment is modelled.
- `Route53Controller.GroupsFor`: which zones a stack group holds is an assumption about `Route53StackGroup`, whose code is not part of this model. The controller only constructs the group from the account and the configuration. The model takes the group to hold exactly the hosted zones configured for its account. `ResolveConfiguredZone` rests on that assumption.
- `Route53Controller.Provision`, `Delete`, `GetStack` and `InitStackGroups` fail with a missing attribute (`stack_grps`, or `second` for `InitStackGroups`) when the project has no `route53` entry. This assumes the base `Controller.__init__`, whose code is not part of this model, sets neither attribute.

=== FILE: iam_managed_policies.dfy ===
/** The `IAMManagedPolicies` CloudFormation template: one
    `AWS::IAM::ManagedPolicy` resource and one output per policy context, in
    the given order, a `Parameters:` section only when some policy brings
    template parameters, and the policy-statement list each resource holds.
    Also the policy name, logical-name prefix and ARN builders.

    The YAML is modelled structurally; the one piece of text kept is the
    list-item line, whose quoting is what distinguishes an intrinsic
    function (`!Ref`, `!Sub`, ...) from a literal.
 */
module IamManagedPolicies {
  import opened Wrappers
  import opened Strings

  /** The `IndexError` of a policy reference with fewer than seven parts. */
  datatype IamError = RefTooShort(parts: nat)

  // ---------------------------------------------------------------------------
  // Statements
  // ---------------------------------------------------------------------------

  /** One statement of a policy document's configuration. */
  datatype Statement = Statement(effect: string, action: seq<string>, resource: seq<string>)

  /** An item of an `Action:` or `Resource:` list, written either in single
      quotes or bare. */
  datatype ListItem = Quoted(text: string) | Unquoted(text: string)

  /** The YAML block of one statement. */
  datatype StatementBlock = StatementBlock(effect: string, actions: seq<ListItem>, resources: seq<ListItem>)

  /** A resource that is a YAML tag such as `!Ref` or `!Sub`: its first
      character is `!` (`resource[0:1] == '!'`, false for `""`). */
  predicate IsTagged(resource: string) {
    |resource| > 0 && resource[0] == '!'
  }

  function ResourceItem(resource: string): (r: ListItem)
    ensures r.text == resource
    ensures r.Unquoted? <==> IsTagged(resource)
  {
    if IsTagged(resource) then Unquoted(resource) else Quoted(resource)
  }

  function ResourceItems(resources: seq<string>): (r: seq<ListItem>)
    ensures |r| == |resources|
    ensures forall j :: 0 <= j < |resources| ==> r[j] == ResourceItem(resources[j])
  {
    seq(|resources|, j requires 0 <= j < |resources| => ResourceItem(resources[j]))
  }

  function ActionItems(actions: seq<string>): (r: seq<ListItem>)
    ensures |r| == |actions|
    ensures forall j :: 0 <= j < |actions| ==> r[j] == Quoted(actions[j])
  {
    seq(|actions|, j requires 0 <= j < |actions| => Quoted(actions[j]))
  }

  /** `gen_statement_yaml(statements)`: one block per statement, in order.
      Every action is quoted; a resource is bare exactly when it is tagged. */
  function GenStatementYaml(statements: seq<Statement>): (r: seq<StatementBlock>)
    ensures |r| == |statements|
    ensures forall i :: 0 <= i < |statements| ==>
      && r[i].effect == statements[i].effect
      && |r[i].actions| == |statements[i].action|
      && |r[i].resources| == |statements[i].resource|
      && (forall j :: 0 <= j < |statements[i].action| ==> r[i].actions[j] == Quoted(statements[i].action[j]))
      && (forall j :: 0 <= j < |statements[i].resource| ==>
            && r[i].resources[j].text == statements[i].resource[j]
            && (r[i].resources[j].Unquoted? <==> IsTagged(statements[i].resource[j])))
    decreases |statements|
  {
    if |statements| == 0 then []
    else
      var s := statements[0];
      [StatementBlock(s.effect, ActionItems(s.action), ResourceItems(s.resource))]
        + GenStatementYaml(statements[1..])
  }

  /** The line that renders a list item (indentation left out). */
  function ItemLine(item: ListItem): (r: string)
    ensures |r| >= 2 && r[..2] == "- "
    ensures item.Quoted? ==>
      |r| == |item.text| + 4 && r[2] == '\'' && r[|r| - 1] == '\'' && r[3..|r| - 1] == item.text
    ensures item.Unquoted? ==> r[2..] == item.text
  {
    match item
    case Quoted(t) => "- '" + t + "'"
    case Unquoted(t) => "- " + t
  }

  /** Reads a rendered list-item line back: a quote after the dash marks a
      quoted item, whose closing quote is dropped. */
  function ParseItemLine(line: string): ListItem
    requires |line| >= 2
  {
    if |line| >= 4 && line[2] == '\'' then Quoted(line[3..|line| - 1]) else Unquoted(line[2..])
  }

  /** The statement a block was generated from. */
  function StatementOf(block: StatementBlock): Statement {
    Statement(block.effect,
              seq(|block.actions|, j requires 0 <= j < |block.actions| => block.actions[j].text),
              seq(|block.resources|, j requires 0 <= j < |block.resources| => block.resources[j].text))
  }

  /** Every generated line reads back as the item it renders, so the
      quoting decision is never ambiguous, and the blocks give back the
      statements they came from. */
  lemma {:induction false} StatementYamlRoundTrip(statements: seq<Statement>)
    ensures var blocks := GenStatementYaml(statements);
      && |blocks| == |statements|
      && forall i :: 0 <= i < |blocks| ==> StatementOf(blocks[i]) == statements[i]
    ensures forall action :: ParseItemLine(ItemLine(Quoted(action))) == Quoted(action)
    ensures forall resource :: ParseItemLine(ItemLine(ResourceItem(resource))) == ResourceItem(resource)
  {
    var blocks := GenStatementYaml(statements);
    forall i | 0 <= i < |blocks|
      ensures StatementOf(blocks[i]) == statements[i]
    {
      var s := statements[i];
      assert StatementOf(blocks[i]).action == s.action;
      assert StatementOf(blocks[i]).resource == s.resource;
    }
    forall action: string
      ensures ParseItemLine(ItemLine(Quoted(action))) == Quoted(action)
    {
      var line := "- '" + action + "'";
      assert line[3..|line| - 1] == action;
    }
    forall resource: string
      ensures ParseItemLine(ItemLine(ResourceItem(resource))) == ResourceItem(resource)
    {
      if IsTagged(resource) {
        var line := "- " + resource;
        assert line[2] == '!';
        assert line[2..] == resource;
      } else {
        var line := "- '" + resource + "'";
        assert line[3..|line| - 1] == resource;
      }
    }
  }

  // ---------------------------------------------------------------------------
  // Names and ARNs
  // ---------------------------------------------------------------------------

  /** What the names depend on: the IAM context id, the account id, and the
      context's `normalize_name`, whose definition is not part of this model. */
  datatype Naming = Naming(
    iamContextId: string,
    accountId: string,
    normalizeName: (string, string, bool) -> string)

  /** `s.replace(c, '')`: every `c` dropped, every other character kept. */
  function RemoveChar(s: string, c: char): (r: string)
    ensures c !in r
    ensures multiset(r) == multiset(s)[c := 0]
    ensures c !in s ==> r == s
    decreases |s|
  {
    if |s| == 0 then ""
    else
      assert s == [s[0]] + s[1..];
      (if s[0] == c then "" else [s[0]]) + RemoveChar(s[1..], c)
  }

  /** Removal works piece by piece, so the kept characters stay in their
      order: removing from a concatenation concatenates the removals. */
  lemma {:induction false} RemoveCharAppend(a: string, b: string, c: char)
    ensures RemoveChar(a + b, c) == RemoveChar(a, c) + RemoveChar(b, c)
    decreases |a|
  {
    if |a| > 0 {
      assert (a + b)[1..] == a[1..] + b;
      RemoveCharAppend(a[1..], b, c);
    } else {
      assert a + b == b;
    }
  }

  /** A single character is dropped exactly when it is `c`. */
  lemma RemoveCharOne(x: char, c: char)
    ensures RemoveChar([x], c) == if x == c then "" else [x]
  {
    assert [x][1..] == "";
  }

  /** `gen_policy_name(policy_id)`: the IAM context id and the policy id
      joined with `-`, then normalised. */
  function GenPolicyName(n: Naming, policyId: string): (r: string)
    ensures r == n.normalizeName(n.iamContextId + "-" + policyId, "-", false)
  {
    JoinSnoc("-", [n.iamContextId], policyId);
    assert [n.iamContextId] + [policyId] == [n.iamContextId, policyId];
    n.normalizeName(Join("-", [n.iamContextId, policyId]), "-", false)
  }

  /** `get_cf_resource_name_prefix(name)`: the normalised name with every
      `-` removed, so that it can start a CloudFormation logical id. */
  function CfResourceNamePrefix(n: Naming, resourceName: string): (r: string)
    ensures '-' !in r
  {
    RemoveChar(n.normalizeName(resourceName, "", true), '-')
  }

  const ArnPrefix: string := "arn:aws:iam::"
  const PolicyPart: string := ":policy/"

  /** `get_policy_arn_from_id(policy_id)`. */
  function PolicyArnFromId(n: Naming, policyId: string): (r: string)
    ensures |r| == |ArnPrefix| + |n.accountId| + |PolicyPart| + |GenPolicyName(n, policyId)|
    ensures r[..|ArnPrefix|] == ArnPrefix
    ensures r[|ArnPrefix|..|ArnPrefix| + |n.accountId|] == n.accountId
    ensures r[|ArnPrefix| + |n.accountId|..|ArnPrefix| + |n.accountId| + |PolicyPart|] == PolicyPart
    ensures r[|ArnPrefix| + |n.accountId| + |PolicyPart|..] == GenPolicyName(n, policyId)
  {
    ArnPrefix + n.accountId + PolicyPart + GenPolicyName(n, policyId)
  }

  /** `get_policy_arn_from_ref(ref)`: the ARN of the policy named by the
      seventh reference part; a shorter reference raises `IndexError`. */
  function PolicyArnFromRef(n: Naming, refParts: seq<string>): (r: Result<string, IamError>)
    ensures r.Success? <==> |refParts| >= 7
    ensures r.Failure? ==> r.error == RefTooShort(|refParts|)
  {
    if |refParts| < 7 then Failure(RefTooShort(|refParts|))
    else
      var policyName := GenPolicyName(n, refParts[6]);
      Success(ArnPrefix + n.accountId + PolicyPart + policyName)
  }

  /** The two ARN builders agree: a reference gives the ARN of its policy id. */
  lemma ArnFromRefMatchesId(n: Naming, refParts: seq<string>)
    requires |refParts| >= 7
    ensures PolicyArnFromRef(n, refParts) == Success(PolicyArnFromId(n, refParts[6]))
  {
  }

  /** Within one account an ARN determines the policy name. */
  lemma ArnDeterminesName(n: Naming, a: string, b: string)
    requires PolicyArnFromId(n, a) == PolicyArnFromId(n, b)
    ensures GenPolicyName(n, a) == GenPolicyName(n, b)
  {
    var k := |ArnPrefix| + |n.accountId| + |PolicyPart|;
    assert GenPolicyName(n, a) == PolicyArnFromId(n, a)[k..];
  }

  // ---------------------------------------------------------------------------
  // The template
  // ---------------------------------------------------------------------------

  /** A template parameter a policy context brings (`key`, `value`, `type`,
      `description`). */
  datatype Param = Param(key: string, value: string, paramType: string, description: string)

  datatype PolicyConfig = PolicyConfig(roles: seq<string>, path: string, statement: seq<Statement>)

  /** One entry of `policies_by_order`; a `template_params` of `None` is
      the empty list, which the template treats the same way. */
  datatype PolicyContext = PolicyContext(id: string, config: PolicyConfig, templateParams: seq<Param>)

  /** One `AWS::IAM::ManagedPolicy` resource. */
  datatype PolicyResource = PolicyResource(
    logicalName: string,
    name: string,
    path: string,
    statement: seq<StatementBlock>,
    roles: seq<string>)

  /** The template: the `Parameters:` header flag, the parameter entries,
      the stack parameters set (key and value), the resources and the
      logical names listed under `Outputs`. */
  datatype PolicyTemplate = PolicyTemplate(
    parametersHeader: bool,
    parameters: seq<Param>,
    stackParameters: seq<(string, string)>,
    resources: seq<PolicyResource>,
    outputs: seq<string>)

  /** The resource generated for one policy context: its logical name is the
      dash-free prefix followed by `ManagedPolicy`, and the other fields come
      from the context's id and configuration. */
  function PolicyResourceOf(n: Naming, p: PolicyContext): (r: PolicyResource)
    ensures '-' !in r.logicalName
    ensures |r.logicalName| >= |"ManagedPolicy"|
    ensures r.logicalName[|r.logicalName| - |"ManagedPolicy"|..] == "ManagedPolicy"
    ensures r.name == GenPolicyName(n, p.id)
    ensures r.path == p.config.path && r.roles == p.config.roles
    ensures |r.statement| == |p.config.statement|
    ensures forall i :: 0 <= i < |r.statement| ==> r.statement[i].effect == p.config.statement[i].effect
  {
    PolicyResource(
      CfResourceNamePrefix(n, p.id) + "ManagedPolicy",
      GenPolicyName(n, p.id),
      p.config.path,
      GenStatementYaml(p.config.statement),
      p.config.roles)
  }

  /** All policy contexts' template parameters, in order. */
  function AllParams(policies: seq<PolicyContext>): seq<Param>
    decreases |policies|
  {
    if |policies| == 0 then []
    else AllParams(policies[..|policies| - 1]) + policies[|policies| - 1].templateParams
  }

  lemma {:induction false} AllParamsEmpty(policies: seq<PolicyContext>)
    ensures |AllParams(policies)| == 0 <==> forall i :: 0 <= i < |policies| ==> |policies[i].templateParams| == 0
    decreases |policies|
  {
    if |policies| > 0 {
      AllParamsEmpty(policies[..|policies| - 1]);
      assert forall i :: 0 <= i < |policies| - 1 ==> policies[..|policies| - 1][i] == policies[i];
    }
  }

  lemma AllParamsStep(policies: seq<PolicyContext>, i: nat)
    requires i < |policies|
    ensures AllParams(policies[..i + 1]) == AllParams(policies[..i]) + policies[i].templateParams
  {
    assert policies[..i + 1][..i] == policies[..i];
  }

  /** Every stack parameter is the key and value of the parameter at the
      same position. */
  predicate Paired(parameters: seq<Param>, stackParameters: seq<(string, string)>) {
    && |stackParameters| == |parameters|
    && forall k :: 0 <= k < |parameters| ==> stackParameters[k] == (parameters[k].key, parameters[k].value)
  }

  /** `set_parameter` for each of a context's parameters, in order: the
      template's parameter list and the stack's parameter list both grow
      by them, and stay paired. */
  method AddParameters(parameters: seq<Param>, stackParameters: seq<(string, string)>, extra: seq<Param>)
      returns (parameters': seq<Param>, stackParameters': seq<(string, string)>)
    requires Paired(parameters, stackParameters)
    ensures parameters' == parameters + extra
    ensures Paired(parameters', stackParameters')
  {
    parameters' := parameters;
    stackParameters' := stackParameters;
    var k := 0;
    while k < |extra|
      invariant 0 <= k <= |extra|
      invariant parameters' == parameters + extra[..k]
      invariant Paired(parameters', stackParameters')
    {
      var param := extra[k];
      stackParameters' := stackParameters' + [(param.key, param.value)];
      parameters' := parameters' + [param];
      assert extra[..k + 1] == extra[..k] + [param];
      k := k + 1;
    }
    assert extra[..k] == extra;
  }

  /** The parameters of every policy context, in order, as both the
      template and the stack record them. */
  method CollectParameters(policies: seq<PolicyContext>)
      returns (parameters: seq<Param>, stackParameters: seq<(string, string)>)
    ensures parameters == AllParams(policies)
    ensures Paired(parameters, stackParameters)
  {
    parameters := [];
    stackParameters := [];
    var i := 0;
    while i < |policies|
      invariant 0 <= i <= |policies|
      invariant parameters == AllParams(policies[..i])
      invariant Paired(parameters, stackParameters)
    {
      parameters, stackParameters := AddParameters(parameters, stackParameters, policies[i].templateParams);
      AllParamsStep(policies, i);
      i := i + 1;
    }
    assert policies[..i] == policies;
  }

  /** One managed-policy resource and one output per policy context, in
      order. */
  method CollectResources(n: Naming, policies: seq<PolicyContext>)
      returns (resources: seq<PolicyResource>, outputs: seq<string>)
    ensures |resources| == |policies| && |outputs| == |policies|
    ensures forall i :: 0 <= i < |policies| ==>
      resources[i] == PolicyResourceOf(n, policies[i]) && outputs[i] == resources[i].logicalName
  {
    resources := seq(|policies|, i requires 0 <= i < |policies| => PolicyResourceOf(n, policies[i]));
    outputs := seq(|policies|, i requires 0 <= i < |policies| => resources[i].logicalName);
  }

  /** The template for `policies_by_order`: one resource and one output per
      policy context, in order; the parameters of every context, in order,
      under a `Parameters:` header that is present exactly when there is
      some parameter. */
  method BuildPolicyTemplate(n: Naming, policies: seq<PolicyContext>) returns (t: PolicyTemplate)
    ensures t.parametersHeader <==> exists i :: 0 <= i < |policies| && |policies[i].templateParams| > 0
    ensures t.parameters == AllParams(policies)
    ensures |t.stackParameters| == |t.parameters|
    ensures forall k :: 0 <= k < |t.parameters| ==>
      t.stackParameters[k] == (t.parameters[k].key, t.parameters[k].value)
    ensures |t.resources| == |policies| && |t.outputs| == |policies|
    ensures forall i :: 0 <= i < |policies| ==>
      && t.resources[i] == PolicyResourceOf(n, policies[i])
      && t.outputs[i] == t.resources[i].logicalName
  {
    var parameters, stackParameters := CollectParameters(policies);
    var resources, outputs := CollectResources(n, policies);
    AllParamsEmpty(policies);
    t := PolicyTemplate(|parameters| > 0, parameters, stackParameters, resources, outputs);
  }
}

=== FILE: route53_controller.dfy ===
/** The Route53 controller: construction, the one-time `init` guarded by
    `init_done`, the stack-group build guarded by `second`, the walks over
    the stack groups, and the lookup that answers `id` references whose
    third part names a hosted zone.

    The controller's Python attributes become an immutable record; each
    operation returns the next record together with the exception it
    raised, if any, since the attributes it set before raising stay set.
 */
module Route53Controller {
  import opened Wrappers

  /** A hosted zone of the Route53 configuration and the account it lives in. */
  datatype HostedZone = HostedZone(id: string, accountName: string)

  /** The `route53` resource: the account names `get_hosted_zones_account_names`
      returns, in order, and the hosted zones. */
  datatype Route53Config = Route53Config(accountNames: seq<string>, hostedZones: seq<HostedZone>)

  /** The project's `route53` resource entry: absent, present but `None`, or
      configured. */
  datatype Route53Entry = Missing | NullConfig | Configured(config: Route53Config)

  datatype ControllerType = Service | Resource

  /** A `Route53StackGroup`, abstracted to its account and the hosted-zone
      ids it holds a stack for. */
  datatype StackGroup = StackGroup(account: string, zoneIds: set<string>)

  /** The stack a group holds for one hosted zone. */
  datatype Stack = Stack(account: string, zoneId: string)

  /** The attributes set only when the project has a `route53` entry. */
  datatype Attrs = Attrs(config: Option<Route53Config>, stackGroups: seq<StackGroup>, second: bool)

  datatype Controller = Controller(controllerType: ControllerType, initDone: bool, attrs: Option<Attrs>)

  /** The exceptions the controller raises. */
  datatype R53Error =
    | MissingAttribute(name: string)  // AttributeError: the attribute was never set
    | NoneConfig                      // AttributeError: the configuration is `None`
    | SecondInit                      // StackException: stack groups built twice
    | RefTooShort                     // IndexError: a reference with fewer than three parts

  /** The state after an operation and the exception it raised, if any. */
  datatype Step = Step(next: Controller, error: Option<R53Error>)

  /** A parsed reference: its dot-separated parts and its last part. The
      third part names the hosted zone. */
  datatype Ref = Ref(parts: seq<string>, lastPart: string)

  // ---------------------------------------------------------------------------
  // Construction and initialisation
  // ---------------------------------------------------------------------------

  /** `Route53Controller(aim_ctx)`: without a `route53` entry the controller
      is finished at once and never gets its other attributes. */
  function Construct(legacyServiceType: bool, entry: Route53Entry): (c: Controller)
    ensures c.controllerType == (if legacyServiceType then Service else Resource)
    ensures entry.Missing? <==> c.initDone
    ensures entry.Missing? <==> c.attrs.None?
    ensures c.attrs.Some? ==>
      && c.attrs.value.stackGroups == []
      && !c.attrs.value.second
      && (c.attrs.value.config.Some? <==> entry.Configured?)
      && (entry.Configured? ==> c.attrs.value.config.value == entry.config)
  {
    var controllerType := if legacyServiceType then Service else Resource;
    match entry
    case Missing => Controller(controllerType, true, None)
    case NullConfig => Controller(controllerType, false, Some(Attrs(None, [], false)))
    case Configured(config) => Controller(controllerType, false, Some(Attrs(Some(config), [], false)))
  }

  /** The ids of the hosted zones of one account. */
  function ZonesOf(config: Route53Config, account: string): set<string> {
    set i | 0 <= i < |config.hostedZones| && config.hostedZones[i].accountName == account
      :: config.hostedZones[i].id
  }

  /** One stack group per hosted-zone account name, in that order. */
  function GroupsFor(config: Route53Config): (r: seq<StackGroup>)
    ensures |r| == |config.accountNames|
    ensures forall i :: 0 <= i < |r| ==> r[i].account == config.accountNames[i]
    ensures forall i, z :: 0 <= i < |r| ==>
      (z in r[i].zoneIds <==> HostedZone(z, r[i].account) in config.hostedZones)
  {
    seq(|config.accountNames|, i requires 0 <= i < |config.accountNames| =>
      StackGroup(config.accountNames[i], ZonesOf(config, config.accountNames[i])))
  }

  /** `init_stack_groups()`: fails when it has run before; otherwise marks
      that it has run and appends one stack group per account. */
  function InitStackGroups(c: Controller): (s: Step)
    ensures c.attrs.None? ==> s == Step(c, Some(MissingAttribute("second")))
    ensures c.attrs.Some? && c.attrs.value.second ==> s == Step(c, Some(SecondInit))
    ensures c.attrs.Some? && !c.attrs.value.second ==>
      && s.next.attrs.Some?
      && s.next.attrs.value.second
      && s.next.initDone == c.initDone
      && s.next.controllerType == c.controllerType
      && s.next.attrs.value.config == c.attrs.value.config
      && (c.attrs.value.config.None? <==> s.error == Some(NoneConfig))
      && (c.attrs.value.config.None? ==> s.next.attrs.value.stackGroups == c.attrs.value.stackGroups)
      && (c.attrs.value.config.Some? ==>
            s.error.None? &&
            s.next.attrs.value.stackGroups == c.attrs.value.stackGroups + GroupsFor(c.attrs.value.config.value))
  {
    match c.attrs
    case None => Step(c, Some(MissingAttribute("second")))
    case Some(a) =>
      if a.second then Step(c, Some(SecondInit))
      else
        var marked := a.(second := true);
        match a.config
        case None => Step(c.(attrs := Some(marked)), Some(NoneConfig))
        case Some(config) =>
          Step(c.(attrs := Some(marked.(stackGroups := a.stackGroups + GroupsFor(config)))), None)
  }

  /** `init(controller_args)`: a no-op once `init_done` is set; otherwise
      sets it and builds the stack groups. */
  function Init(c: Controller): (s: Step)
    ensures c.initDone ==> s == Step(c, None)
    ensures !c.initDone && c.attrs.None? ==> s == Step(c, Some(MissingAttribute("config")))
    ensures !c.initDone && c.attrs.Some? && c.attrs.value.config.None? ==> s == Step(c, Some(NoneConfig))
    ensures !c.initDone && c.attrs.Some? && c.attrs.value.config.Some? ==>
      s == InitStackGroups(c.(initDone := true))
  {
    if c.initDone then Step(c, None)
    else
      match c.attrs
      case None => Step(c, Some(MissingAttribute("config")))
      case Some(a) =>
        if a.config.None? then Step(c, Some(NoneConfig))
        else InitStackGroups(c.(initDone := true))
  }

  /** Without a `route53` entry, `init` changes nothing. */
  lemma MissingInitIsNoop(legacyServiceType: bool)
    ensures var c := Construct(legacyServiceType, Missing);
      c.initDone && Init(c) == Step(c, None)
  {
  }

  /** `init` is idempotent: once it has succeeded, a further call changes
      nothing and raises nothing. */
  lemma InitIdempotent(c: Controller)
    requires Init(c).error.None?
    ensures Init(c).next.initDone
    ensures Init(Init(c).next) == Step(Init(c).next, None)
  {
  }

  /** A configured controller, once initialised, holds exactly one stack
      group per hosted-zone account name, in that order. */
  lemma InitBuildsOneGroupPerAccount(legacyServiceType: bool, config: Route53Config)
    ensures var s := Init(Construct(legacyServiceType, Configured(config)));
      && s.error.None?
      && s.next.initDone
      && s.next.attrs.Some?
      && s.next.attrs.value.stackGroups == GroupsFor(config)
  {
  }

  // ---------------------------------------------------------------------------
  // Stack groups are built exactly once
  // ---------------------------------------------------------------------------

  /** What holds of every controller `Construct` produces and the two
      initialisation operations keep: the stack groups are either not built
      yet or exactly one group per account. */
  predicate Consistent(c: Controller) {
    match c.attrs
    case None => c.initDone
    case Some(a) =>
      && (!a.second ==> a.stackGroups == [])
      && (a.second && a.config.Some? ==> a.stackGroups == GroupsFor(a.config.value))
      && (a.config.None? ==> a.stackGroups == [])
  }

  datatype Op = InitOp | InitStackGroupsOp

  /** The state after calling the operations in order, each exception caught
      and the attributes it left behind kept. */
  function Run(c: Controller, ops: seq<Op>): Controller
    decreases |ops|
  {
    if |ops| == 0 then c
    else
      var s := if ops[0] == InitOp then Init(c) else InitStackGroups(c);
      Run(s.next, ops[1..])
  }

  /** Once `second` is set, no sequence of calls clears it. */
  lemma {:induction false} SecondSticks(c: Controller, ops: seq<Op>)
    requires c.attrs.Some? && c.attrs.value.second
    ensures Run(c, ops).attrs.Some? && Run(c, ops).attrs.value.second
    decreases |ops|
  {
    if |ops| > 0 {
      var s := if ops[0] == InitOp then Init(c) else InitStackGroups(c);
      SecondSticks(s.next, ops[1..]);
    }
  }

  /** `init_stack_groups` succeeds at most once: after a call that got past
      the `second` check, and whatever calls follow it, a further call
      raises and changes nothing. */
  lemma InitStackGroupsAtMostOnce(c: Controller, ops: seq<Op>)
    requires c.attrs.Some? && !c.attrs.value.second
    ensures var later := Run(InitStackGroups(c).next, ops);
      InitStackGroups(later) == Step(later, Some(SecondInit))
  {
    SecondSticks(InitStackGroups(c).next, ops);
  }

  lemma ConstructConsistent(legacyServiceType: bool, entry: Route53Entry)
    ensures Consistent(Construct(legacyServiceType, entry))
  {
  }

  lemma StepsKeepConsistent(c: Controller)
    requires Consistent(c)
    ensures Consistent(Init(c).next)
    ensures Consistent(InitStackGroups(c).next)
  {
  }

  /** However `init` and `init_stack_groups` are called, and whichever of
      them raise, the configured stack groups are built once and never
      repeated. */
  lemma {:induction false} StackGroupsBuiltOnce(c: Controller, ops: seq<Op>)
    requires Consistent(c)
    ensures Consistent(Run(c, ops))
    ensures var a := Run(c, ops).attrs;
      a.Some? && a.value.config.Some? ==>
        a.value.stackGroups == [] || a.value.stackGroups == GroupsFor(a.value.config.value)
    decreases |ops|
  {
    if |ops| > 0 {
      StepsKeepConsistent(c);
      var s := if ops[0] == InitOp then Init(c) else InitStackGroups(c);
      StackGroupsBuiltOnce(s.next, ops[1..]);
    }
  }

  // ---------------------------------------------------------------------------
  // Walks over the stack groups
  // ---------------------------------------------------------------------------

  /** The stack groups `validate` and `provision` visit, in order. */
  function Provision(c: Controller): (r: Result<seq<StackGroup>, R53Error>)
    ensures c.attrs.None? <==> r.Failure?
    ensures r.Failure? ==> r.error == MissingAttribute("stack_grps")
    ensures r.Success? ==> r.value == c.attrs.value.stackGroups
  {
    match c.attrs
    case None => Failure(MissingAttribute("stack_grps"))
    case Some(a) => Success(a.stackGroups)
  }

  function Reverse<T>(xs: seq<T>): (r: seq<T>)
    ensures |r| == |xs|
    ensures forall i :: 0 <= i < |xs| ==> r[i] == xs[|xs| - 1 - i]
  {
    seq(|xs|, i requires 0 <= i < |xs| => xs[|xs| - 1 - i])
  }

  /** The stack groups `delete` visits: those of `provision`, last first. */
  function Delete(c: Controller): (r: Result<seq<StackGroup>, R53Error>)
    ensures r.Success? <==> Provision(c).Success?
    ensures r.Failure? ==> r.error == Provision(c).error
    ensures r.Success? ==>
      && |r.value| == |Provision(c).value|
      && forall i :: 0 <= i < |r.value| ==>
           r.value[i] == Provision(c).value[|r.value| - 1 - i]
  {
    match c.attrs
    case None => Failure(MissingAttribute("stack_grps"))
    case Some(a) => Success(Reverse(a.stackGroups))
  }

  /** Deleting visits exactly the provisioned groups, and reversing the
      deletion order gives the provisioning order back. */
  lemma DeleteUndoesProvisionOrder(c: Controller)
    requires c.attrs.Some?
    ensures Reverse(Delete(c).value) == Provision(c).value
    ensures multiset(Delete(c).value) == multiset(Provision(c).value)
  {
    var d := Delete(c).value;
    var p := Provision(c).value;
    assert Reverse(d) == p;
    ReverseSameElements(p);
  }

  lemma {:induction false} ReverseSameElements<T>(xs: seq<T>)
    ensures multiset(Reverse(xs)) == multiset(xs)
    decreases |xs|
  {
    if |xs| > 0 {
      var front := xs[..|xs| - 1];
      ReverseSameElements(front);
      assert Reverse(xs) == [xs[|xs| - 1]] + Reverse(front);
      assert xs == front + [xs[|xs| - 1]];
    }
  }

  // ---------------------------------------------------------------------------
  // Lookup and reference resolution
  // ---------------------------------------------------------------------------

  /** The stack of the first group holding the zone. */
  function FindStack(groups: seq<StackGroup>, zoneId: string): (r: Option<Stack>)
    ensures r.None? <==> forall i :: 0 <= i < |groups| ==> zoneId !in groups[i].zoneIds
    ensures r.Some? ==> exists i ::
      && 0 <= i < |groups|
      && zoneId in groups[i].zoneIds
      && (forall j :: 0 <= j < i ==> zoneId !in groups[j].zoneIds)
      && r.value == Stack(groups[i].account, zoneId)
    decreases |groups|
  {
    if |groups| == 0 then None
    else if zoneId in groups[0].zoneIds then Some(Stack(groups[0].account, zoneId))
    else
      assert forall j :: 1 <= j < |groups| ==> groups[1..][j - 1] == groups[j];
      FindStack(groups[1..], zoneId)
  }

  /** `get_stack(zone_id)`. */
  function GetStack(c: Controller, zoneId: string): (r: Result<Option<Stack>, R53Error>)
    ensures r.Failure? <==> c.attrs.None?
    ensures r.Success? ==> r.value == FindStack(c.attrs.value.stackGroups, zoneId)
  {
    match c.attrs
    case None => Failure(MissingAttribute("stack_grps"))
    case Some(a) => Success(FindStack(a.stackGroups, zoneId))
  }

  /** `resolve_ref(ref)`: only an `id` reference is answered, with the stack
      of the zone its third part names. */
  function ResolveRef(c: Controller, ref: Ref): (r: Result<Option<Stack>, R53Error>)
    ensures ref.lastPart != "id" ==> r == Success(None)
    ensures ref.lastPart == "id" && |ref.parts| < 3 ==> r == Failure(RefTooShort)
    ensures ref.lastPart == "id" && |ref.parts| >= 3 ==> r == GetStack(c, ref.parts[2])
  {
    if ref.lastPart == "id" then
      if |ref.parts| < 3 then Failure(RefTooShort) else GetStack(c, ref.parts[2])
    else Success(None)
  }

  /** The first group holding a zone answers for it. */
  lemma {:induction false} FindStackAt(groups: seq<StackGroup>, zoneId: string, k: nat)
    requires k < |groups| && zoneId in groups[k].zoneIds
    requires forall j :: 0 <= j < k ==> zoneId !in groups[j].zoneIds
    ensures FindStack(groups, zoneId) == Some(Stack(groups[k].account, zoneId))
    decreases k
  {
    if k > 0 {
      FindStackAt(groups[1..], zoneId, k - 1);
    }
  }

  /** After `init`, an `id` reference whose third part names a configured
      zone resolves to the stack of the first account, in account order,
      that holds the zone. */
  lemma ResolveConfiguredZone(legacyServiceType: bool, config: Route53Config, account: string, zone: string, k: nat, ref: Ref)
    requires k < |config.accountNames| && config.accountNames[k] == account
    requires HostedZone(zone, account) in config.hostedZones
    requires forall j :: 0 <= j < k ==> HostedZone(zone, config.accountNames[j]) !in config.hostedZones
    requires ref.lastPart == "id" && |ref.parts| >= 3 && ref.parts[2] == zone
    ensures var c := Init(Construct(legacyServiceType, Configured(config))).next;
      ResolveRef(c, ref) == Success(Some(Stack(account, zone)))
  {
    var c := Init(Construct(legacyServiceType, Configured(config))).next;
    var groups := GroupsFor(config);
    assert c.attrs.value.stackGroups == groups;
    FindStackAt(groups, zone, k);
  }
}

=== FILE: security_groups.dfy ===
/** The `SecurityGroups` CloudFormation template: one `AWS::EC2::SecurityGroup`
    resource per configured group, in sorted name order, each followed by
    its ingress and then its egress rule resources, and one output per
    group; plus the two helpers that read security-group references.

    The emitted YAML is modelled structurally: the resources and outputs in
    the order the template text lists them, each with the fields the text
    fills in.
 */
module SecurityGroups {
  import opened Wrappers
  import opened Strings

  /** The `StackException`s (and Python `IndexError`s) the template raises. */
  datatype SgError =
    | NotNetenvRef(ref: string)         // first token of a reference is not `netenv.ref`
    | MissingRefPath(ref: string)       // IndexError: no second token
    | TooFewSegments(ref: string)       // IndexError: fewer than two `.`-segments
    | NoRuleSource(ruleName: string)    // neither cidr_ip nor source_security_group_id
    | RefTooShort                       // IndexError: fewer than nine reference parts
    | NotSubenv
    | NotNetwork
    | NotVpc
    | NotSecurityGroups

  /** One ingress or egress rule of a group's configuration. Ports are kept
      as the text they are rendered with; `""` means unset. */
  datatype Rule = Rule(
    name: string,
    protocol: string,
    cidrIp: string,
    sourceSecurityGroupId: string,
    fromPort: string,
    toPort: string)

  datatype GroupConfig = GroupConfig(ingress: seq<Rule>, egress: seq<Rule>)

  datatype RuleType = Ingress | Egress

  function TypeName(t: RuleType): string {
    match t
    case Ingress => "Ingress"
    case Egress => "Egress"
  }

  datatype Source = CidrIp(cidr: string) | SourceSecurityGroupId(localRef: string)

  /** A resource of the template, with the fields its YAML block fills in. */
  datatype Resource =
    | SecurityGroup(cfName: string, groupName: string, description: string)
    | SecurityGroupRule(
        cfRuleName: string,
        cfSgName: string,
        ruleType: RuleType,
        protocol: string,
        fromPort: Option<string>,
        toPort: Option<string>,
        source: Source)

  /** The template's resources and the logical names listed under `Outputs`. */
  datatype Template = Template(resources: seq<Resource>, outputs: seq<string>)

  /** What the template reads from its environment: the ids that make up a
      group's name, and the context's `normalized_join`, whose definition
      is not part of this model. */
  datatype Context = Context(
    netenvId: string,
    subenvId: string,
    sgGroupId: string,
    normalizedJoin: (seq<string>, string, bool) -> string)

  const Description: string := "AIM generated Security Group"

  /** The first token of a reference to a group in the same network
      environment. */
  const NetenvRef: string := "netenv.ref"

  // ---------------------------------------------------------------------------
  // References
  // ---------------------------------------------------------------------------

  /** `get_local_sg_ref(aim_ref)`: for `netenv.ref <a.b. ... .sg.x>`, the
      second-to-last `.`-segment of the dotted path. */
  function GetLocalSgRef(aimRef: string): (r: Result<string, SgError>)
    ensures r.Success? <==>
      var tokens := Split(aimRef, ' ');
      tokens[0] == NetenvRef && |tokens| >= 2 && |Split(tokens[1], '.')| >= 2
    ensures r.Success? ==>
      var segs := Split(Split(aimRef, ' ')[1], '.');
      r.value == segs[|segs| - 2]
    ensures r.Success? ==> '.' !in r.value && ' ' !in r.value
  {
    var tokens := Split(aimRef, ' ');
    if tokens[0] != NetenvRef then Failure(NotNetenvRef(aimRef))
    else if |tokens| < 2 then Failure(MissingRefPath(aimRef))
    else
      var segs := Split(tokens[1], '.');
      if |segs| < 2 then Failure(TooFewSegments(aimRef))
      else Success(segs[|segs| - 2])
  }

  /** A reference written as `netenv.ref`, a space and a dotted path of
      plain segments yields the segment before the last. */
  lemma LocalSgRefOfPath(segs: seq<string>)
    requires |segs| >= 2
    requires forall i :: 0 <= i < |segs| ==> '.' !in segs[i] && ' ' !in segs[i]
    ensures GetLocalSgRef(NetenvRef + [' '] + Join(['.'], segs)) == Success(segs[|segs| - 2])
  {
    var path := Join(['.'], segs);
    NoCharInJoin(segs, ' ', '.');
    assert ' ' !in NetenvRef;
    TwoTokens(NetenvRef, path);
    JoinThenSplit(segs, '.');
    LocalSgRefOfTokens(NetenvRef + [' '] + path, path, segs);
  }

  /** Two space-free tokens with one space between split into the two. */
  lemma TwoTokens(head: string, path: string)
    requires ' ' !in head && ' ' !in path
    ensures Split(head + [' '] + path, ' ') == [head, path]
  {
    SplitAfterPart(head, ' ', path);
    SplitNoSeparator(path, ' ');
  }

  lemma LocalSgRefOfTokens(aimRef: string, path: string, segs: seq<string>)
    requires Split(aimRef, ' ') == [NetenvRef, path]
    requires Split(path, '.') == segs && |segs| >= 2
    ensures GetLocalSgRef(aimRef) == Success(segs[|segs| - 2])
  {
  }

  /** A character that is neither the separator nor in any part is not in
      the join. */
  lemma {:induction false} NoCharInJoin(parts: seq<string>, x: char, c: char)
    requires x != c
    requires forall i :: 0 <= i < |parts| ==> x !in parts[i]
    ensures x !in Join([c], parts)
    decreases |parts|
  {
    if |parts| > 1 {
      NoCharInJoin(parts[..|parts| - 1], x, c);
    }
  }

  /** The fields `parse_ref` produces for a reference; `parse_ref` itself is
      not part of this model. */
  datatype ParsedRef = ParsedRef(refParts: seq<string>, subenvComponent: string, netenvComponent: string)

  /** `get_outputs_key_from_ref(aim_ref)`: the security-group id of a
      `...network.vpc.security_groups.<group>.<id>` reference. */
  function GetOutputsKeyFromRef(ref: ParsedRef): (r: Result<string, SgError>)
    ensures r.Success? <==>
      && |ref.refParts| >= 9
      && ref.subenvComponent == "subenv"
      && ref.netenvComponent == "network"
      && ref.refParts[5] == "vpc"
      && ref.refParts[6] == "security_groups"
    ensures r.Success? ==> r.value == ref.refParts[8]
    ensures |ref.refParts| < 9 ==> r == Failure(RefTooShort)
  {
    if |ref.refParts| < 9 then Failure(RefTooShort)
    else if ref.subenvComponent != "subenv" then Failure(NotSubenv)
    else if ref.netenvComponent != "network" then Failure(NotNetwork)
    else if ref.refParts[5] != "vpc" then Failure(NotVpc)
    else if ref.refParts[6] != "security_groups" then Failure(NotSecurityGroups)
    else Success(ref.refParts[8])
  }

  /** A reference to a group of a network's VPC yields the group id it
      names, whatever the first five parts and the parts after the id. */
  lemma OutputsKeyOfGroupRef(head: seq<string>, group: string, id: string, tail: seq<string>)
    requires |head| == 5
    ensures var parts := head + ["vpc", "security_groups", group, id] + tail;
      GetOutputsKeyFromRef(ParsedRef(parts, "subenv", "network")) == Success(id)
  {
    var parts := head + ["vpc", "security_groups", group, id] + tail;
    assert parts[5] == "vpc" && parts[6] == "security_groups" && parts[8] == id;
  }

  // ---------------------------------------------------------------------------
  // Rules
  // ---------------------------------------------------------------------------

  /** A rule has a usable source: a CIDR block, or a source security group
      given as a local reference. */
  predicate RuleOk(rule: Rule) {
    rule.cidrIp != "" || (rule.sourceSecurityGroupId != "" && GetLocalSgRef(rule.sourceSecurityGroupId).Success?)
  }

  /** The resource for one rule of group `sgName`. A CIDR block takes
      precedence over a source security group; a rule with neither fails. */
  function RuleResource(sgName: string, ruleType: RuleType, rule: Rule): (r: Result<Resource, SgError>)
    ensures r.Success? <==> RuleOk(rule)
    ensures rule.cidrIp == "" && rule.sourceSecurityGroupId == "" ==> r == Failure(NoRuleSource(rule.name))
    ensures r.Success? ==>
      && r.value.SecurityGroupRule?
      && r.value.cfRuleName == sgName + TypeName(ruleType) + rule.name
      && r.value.cfSgName == sgName
      && r.value.ruleType == ruleType
      && r.value.protocol == rule.protocol
    ensures r.Success? ==>
      && (r.value.source.CidrIp? <==> rule.cidrIp != "")
      && (r.value.source.CidrIp? ==> r.value.source.cidr == rule.cidrIp)
      && (r.value.source.SourceSecurityGroupId? ==>
            r.value.source.localRef == GetLocalSgRef(rule.sourceSecurityGroupId).value)
    ensures r.Success? ==>
      && (r.value.fromPort.Some? <==> rule.fromPort != "")
      && (r.value.fromPort.Some? ==> r.value.fromPort.value == rule.fromPort)
      && (r.value.toPort.Some? <==> rule.toPort != "")
      && (r.value.toPort.Some? ==> r.value.toPort.value == rule.toPort)
  {
    var source :-
      if rule.cidrIp != "" then Success(CidrIp(rule.cidrIp))
      else if rule.sourceSecurityGroupId != "" then
        match GetLocalSgRef(rule.sourceSecurityGroupId)
        case Success(localRef) => Success(SourceSecurityGroupId(localRef))
        case Failure(e) => Failure(e)
      else Failure(NoRuleSource(rule.name));
    var fromPort := if rule.fromPort != "" then Some(rule.fromPort) else None;
    var toPort := if rule.toPort != "" then Some(rule.toPort) else None;
    Success(SecurityGroupRule(sgName + TypeName(ruleType) + rule.name, sgName, ruleType,
                              rule.protocol, fromPort, toPort, source))
  }

  /** Every resource is a rule resource of group `owner`. */
  predicate OwnedRules(rs: seq<Resource>, owner: string) {
    forall i :: 0 <= i < |rs| ==> rs[i].SecurityGroupRule? && rs[i].cfSgName == owner
  }

  /** The resources for a list of rules of one type, in list order; the
      first rule that fails fails the list. */
  function RuleResources(sgName: string, ruleType: RuleType, rules: seq<Rule>): (r: Result<seq<Resource>, SgError>)
    ensures r.Success? <==> forall i :: 0 <= i < |rules| ==> RuleOk(rules[i])
    ensures r.Success? ==>
      && |r.value| == |rules|
      && forall i :: 0 <= i < |rules| ==> r.value[i] == RuleResource(sgName, ruleType, rules[i]).value
    ensures r.Success? ==> OwnedRules(r.value, sgName)
    ensures r.Failure? ==> exists i ::
      && 0 <= i < |rules|
      && RuleResource(sgName, ruleType, rules[i]) == Failure(r.error)
      && forall j :: 0 <= j < i ==> RuleResource(sgName, ruleType, rules[j]).Success?
    decreases |rules|
  {
    if |rules| == 0 then Success([])
    else
      match RuleResource(sgName, ruleType, rules[0])
      case Failure(e) => Failure(e)
      case Success(first) =>
        match RuleResources(sgName, ruleType, rules[1..])
        case Failure(e) =>
          assert forall j :: 1 <= j < |rules| ==> rules[1..][j - 1] == rules[j];
          Failure(e)
        case Success(rest) => Success([first] + rest)
  }

  // ---------------------------------------------------------------------------
  // Groups and the template
  // ---------------------------------------------------------------------------

  /** Every rule of a group has a usable source. */
  predicate GroupOk(cfg: GroupConfig) {
    && (forall i :: 0 <= i < |cfg.ingress| ==> RuleOk(cfg.ingress[i]))
    && (forall i :: 0 <= i < |cfg.egress| ==> RuleOk(cfg.egress[i]))
  }

  /** The group resource followed by its ingress and then its egress rules. */
  function GroupResources(ctx: Context, sgName: string, cfg: GroupConfig): (r: Result<seq<Resource>, SgError>)
    ensures r.Success? <==> GroupOk(cfg)
    ensures r.Success? ==>
      && |r.value| == 1 + |cfg.ingress| + |cfg.egress|
      && r.value[0] == SecurityGroup(sgName, GroupName(ctx, sgName), Description)
      && OwnedRules(r.value[1..], sgName)
  {
    match RuleResources(sgName, Ingress, cfg.ingress)
    case Failure(e) => Failure(e)
    case Success(ingress) =>
      match RuleResources(sgName, Egress, cfg.egress)
      case Failure(e) => Failure(e)
      case Success(egress) =>
        Success([SecurityGroup(sgName, GroupName(ctx, sgName), Description)] + (ingress + egress))
  }

  /** `rs` are the resources of `rules`, one for one and in order. */
  predicate ResourcesOfRules(rs: seq<Resource>, sgName: string, ruleType: RuleType, rules: seq<Rule>)
    requires forall i :: 0 <= i < |rules| ==> RuleOk(rules[i])
  {
    && |rs| == |rules|
    && forall i :: 0 <= i < |rules| ==> rs[i] == RuleResource(sgName, ruleType, rules[i]).value
  }

  /** `rules` are the resources of group `sgName`'s ingress rules followed
      by those of its egress rules, each list in configuration order. */
  predicate RulesInOrder(rules: seq<Resource>, sgName: string, cfg: GroupConfig)
    requires GroupOk(cfg)
  {
    && |rules| == |cfg.ingress| + |cfg.egress|
    && ResourcesOfRules(rules[..|cfg.ingress|], sgName, Ingress, cfg.ingress)
    && ResourcesOfRules(rules[|cfg.ingress|..], sgName, Egress, cfg.egress)
  }

  /** After the group resource come the ingress rules and then the egress
      rules, each in configuration order. */
  lemma GroupRulesInOrder(ctx: Context, sgName: string, cfg: GroupConfig)
    requires GroupResources(ctx, sgName, cfg).Success?
    ensures GroupOk(cfg) && RulesInOrder(GroupResources(ctx, sgName, cfg).value[1..], sgName, cfg)
  {
    var ingress := RuleResources(sgName, Ingress, cfg.ingress).value;
    var egress := RuleResources(sgName, Egress, cfg.egress).value;
    assert GroupResources(ctx, sgName, cfg).value[1..] == ingress + egress;
    ConcatInOrder(ingress, egress, sgName, cfg);
  }

  lemma ConcatInOrder(ingress: seq<Resource>, egress: seq<Resource>, sgName: string, cfg: GroupConfig)
    requires RuleResources(sgName, Ingress, cfg.ingress) == Success(ingress)
    requires RuleResources(sgName, Egress, cfg.egress) == Success(egress)
    ensures GroupOk(cfg) && RulesInOrder(ingress + egress, sgName, cfg)
  {
    var rules := ingress + egress;
    assert rules[..|ingress|] == ingress;
    assert rules[|ingress|..] == egress;
  }

  /** The group's `GroupName`: the context's normalized join of the network
      environment, sub-environment, group-set and group names. */
  function GroupName(ctx: Context, sgName: string): string {
    ctx.normalizedJoin([ctx.netenvId, ctx.subenvId, ctx.sgGroupId, sgName], "", true)
  }

  /** The blocks of the named groups, one per name, in the order of the
      names; the first group that fails fails them all. */
  function GroupBlocks(ctx: Context, config: map<string, GroupConfig>, names: seq<string>): (r: Result<seq<seq<Resource>>, SgError>)
    requires forall i :: 0 <= i < |names| ==> names[i] in config
    ensures r.Success? <==> forall i :: 0 <= i < |names| ==> GroupOk(config[names[i]])
    ensures r.Success? ==>
      && |r.value| == |names|
      && forall k :: 0 <= k < |names| ==>
           r.value[k] == GroupResources(ctx, names[k], config[names[k]]).value
    decreases |names|
  {
    if |names| == 0 then Success([])
    else
      assert forall i :: 1 <= i < |names| ==> names[1..][i - 1] == names[i];
      match GroupResources(ctx, names[0], config[names[0]])
      case Failure(e) => Failure(e)
      case Success(first) =>
        match GroupBlocks(ctx, config, names[1..])
        case Failure(e) => Failure(e)
        case Success(rest) => Success([first] + rest)
  }

  /** The blocks one after the other. */
  function Flatten(blocks: seq<seq<Resource>>): seq<Resource>
    decreases |blocks|
  {
    if |blocks| == 0 then [] else blocks[0] + Flatten(blocks[1..])
  }

  lemma SortedGroupsOk(config: map<string, GroupConfig>, names: seq<string>)
    requires forall name :: name in config <==> name in names
    ensures forall i :: 0 <= i < |names| ==> names[i] in config
    ensures (forall i :: 0 <= i < |names| ==> GroupOk(config[names[i]]))
        <==> (forall name :: name in config ==> GroupOk(config[name]))
  {
    if forall i :: 0 <= i < |names| ==> GroupOk(config[names[i]]) {
      forall name | name in config
        ensures GroupOk(config[name])
      {
        var i :| 0 <= i < |names| && names[i] == name;
      }
    }
  }

  /** The whole template: the groups in sorted name order, each group's
      resource followed by its ingress and egress rules, and one output per
      group in the same order. Any rule without a usable source fails the
      template. */
  function BuildTemplate(ctx: Context, config: map<string, GroupConfig>): (r: Result<Template, SgError>)
    ensures r.Success? <==> forall name :: name in config ==> GroupOk(config[name])
    ensures r.Success? ==>
      && |r.value.outputs| == |config|
      && (forall name :: name in config <==> name in r.value.outputs)
      && StrictlySorted(r.value.outputs)
  {
    var names := SortedNames(config.Keys);
    SortedGroupsOk(config, names);
    var blocks :- GroupBlocks(ctx, config, names);
    Success(Template(Flatten(blocks), names))
  }

  // ---------------------------------------------------------------------------
  // Layout of the emitted resources
  // ---------------------------------------------------------------------------

  /** The logical names of the group resources, in emitted order. */
  function GroupNamesOf(rs: seq<Resource>): seq<string>
    decreases |rs|
  {
    if |rs| == 0 then []
    else (if rs[0].SecurityGroup? then [rs[0].cfName] else []) + GroupNamesOf(rs[1..])
  }

  /** The rule resources that belong to group `sgName`, in emitted order. */
  function RulesOf(rs: seq<Resource>, sgName: string): seq<Resource>
    decreases |rs|
  {
    if |rs| == 0 then []
    else
      var own := rs[0].SecurityGroupRule? && rs[0].cfSgName == sgName;
      (if own then [rs[0]] else []) + RulesOf(rs[1..], sgName)
  }

  lemma {:induction false} GroupNamesOfAppend(a: seq<Resource>, b: seq<Resource>)
    ensures GroupNamesOf(a + b) == GroupNamesOf(a) + GroupNamesOf(b)
    decreases |a|
  {
    if |a| > 0 {
      assert (a + b)[0] == a[0];
      assert (a + b)[1..] == a[1..] + b;
      GroupNamesOfAppend(a[1..], b);
    } else {
      assert a + b == b;
    }
  }

  lemma {:induction false} RulesOfAppend(a: seq<Resource>, b: seq<Resource>, sgName: string)
    ensures RulesOf(a + b, sgName) == RulesOf(a, sgName) + RulesOf(b, sgName)
    decreases |a|
  {
    if |a| > 0 {
      assert (a + b)[0] == a[0];
      assert (a + b)[1..] == a[1..] + b;
      RulesOfAppend(a[1..], b, sgName);
    } else {
      assert a + b == b;
    }
  }

  /** In a run of rule resources of one group there is no group resource;
      filtering by that group keeps the whole run, by any other group none. */
  lemma {:induction false} RuleRun(rs: seq<Resource>, owner: string, sgName: string)
    requires OwnedRules(rs, owner)
    ensures GroupNamesOf(rs) == []
    ensures RulesOf(rs, sgName) == if sgName == owner then rs else []
    decreases |rs|
  {
    if |rs| > 0 {
      RuleRun(rs[1..], owner, sgName);
      assert rs == [rs[0]] + rs[1..];
    }
  }

  /** A group's block: the group resource named `owner`, then rule
      resources of that group only. */
  predicate BlockShape(block: seq<Resource>, owner: string) {
    && |block| > 0
    && block[0].SecurityGroup?
    && block[0].cfName == owner
    && OwnedRules(block[1..], owner)
  }

  lemma GroupResourcesShape(ctx: Context, owner: string, cfg: GroupConfig)
    requires GroupResources(ctx, owner, cfg).Success?
    ensures BlockShape(GroupResources(ctx, owner, cfg).value, owner)
  {
  }

  /** A block lists its group once, and its rules are exactly the block
      after the group resource. */
  lemma BlockLayout(block: seq<Resource>, owner: string, sgName: string)
    requires BlockShape(block, owner)
    ensures GroupNamesOf(block) == [owner]
    ensures RulesOf(block, sgName) == if sgName == owner then block[1..] else []
  {
    RuleRun(block[1..], owner, sgName);
    assert block == [block[0]] + block[1..];
  }

  /** No name appears twice. */
  predicate Distinct(names: seq<string>) {
    forall i, j :: 0 <= i < j < |names| ==> names[i] != names[j]
  }

  /** Each well-shaped block lists its own group once and holds the rules
      of its own group only. */
  lemma BlocksLayout(blocks: seq<seq<Resource>>, names: seq<string>, sgName: string)
    requires |blocks| == |names|
    requires forall k :: 0 <= k < |blocks| ==> BlockShape(blocks[k], names[k])
    ensures forall k :: 0 <= k < |blocks| ==> GroupNamesOf(blocks[k]) == [names[k]]
    ensures forall k :: 0 <= k < |blocks| ==>
      |blocks[k]| > 0 && RulesOf(blocks[k], sgName) == if names[k] == sgName then blocks[k][1..] else []
  {
    forall k | 0 <= k < |blocks|
      ensures GroupNamesOf(blocks[k]) == [names[k]]
      ensures |blocks[k]| > 0 && RulesOf(blocks[k], sgName) == if names[k] == sgName then blocks[k][1..] else []
    {
      BlockLayout(blocks[k], names[k], sgName);
    }
  }

  /** Blocks that each list one group, flattened, list the groups in block
      order. */
  lemma {:induction false} FlattenNames(blocks: seq<seq<Resource>>, names: seq<string>)
    requires |blocks| == |names|
    requires forall k :: 0 <= k < |blocks| ==> GroupNamesOf(blocks[k]) == [names[k]]
    ensures GroupNamesOf(Flatten(blocks)) == names
    decreases |blocks|
  {
    if |blocks| > 0 {
      var tail := names[1..];
      assert forall k :: 0 <= k < |blocks[1..]| ==> blocks[1..][k] == blocks[k + 1] && tail[k] == names[k + 1];
      FlattenNames(blocks[1..], tail);
      GroupNamesOfAppend(blocks[0], Flatten(blocks[1..]));
      assert names == [names[0]] + tail;
    }
  }

  /** Blocks holding no rules of a group, flattened, hold none either. */
  lemma {:induction false} FlattenNoRules(blocks: seq<seq<Resource>>, sgName: string)
    requires forall k :: 0 <= k < |blocks| ==> RulesOf(blocks[k], sgName) == []
    ensures RulesOf(Flatten(blocks), sgName) == []
    decreases |blocks|
  {
    if |blocks| > 0 {
      var rest := blocks[1..];
      assert forall k :: 0 <= k < |rest| ==> rest[k] == blocks[k + 1];
      FlattenNoRules(rest, sgName);
      RulesOfAppend(blocks[0], Flatten(rest), sgName);
    }
  }

  /** When block `k` alone holds rules of a group, the flattened blocks hold
      exactly those rules. */
  lemma {:induction false} FlattenRulesAt(blocks: seq<seq<Resource>>, k: nat, sgName: string, own: seq<Resource>)
    requires k < |blocks| && RulesOf(blocks[k], sgName) == own
    requires forall j :: 0 <= j < |blocks| && j != k ==> RulesOf(blocks[j], sgName) == []
    ensures RulesOf(Flatten(blocks), sgName) == own
    decreases k
  {
    var rest := blocks[1..];
    assert forall j :: 0 <= j < |rest| ==> rest[j] == blocks[j + 1];
    if k == 0 {
      FlattenNoRules(rest, sgName);
    } else {
      FlattenRulesAt(rest, k - 1, sgName, own);
    }
    RulesOfAppend(blocks[0], Flatten(rest), sgName);
  }

  /** With distinct names, only the block of group `names[k]` holds rules of
      that group. */
  lemma OnlyOwnBlock(blocks: seq<seq<Resource>>, names: seq<string>, k: nat)
    requires |blocks| == |names| && Distinct(names) && k < |names|
    requires forall j :: 0 <= j < |blocks| ==>
      |blocks[j]| > 0 && RulesOf(blocks[j], names[k]) == if names[j] == names[k] then blocks[j][1..] else []
    ensures RulesOf(blocks[k], names[k]) == blocks[k][1..]
    ensures forall j :: 0 <= j < |blocks| && j != k ==> RulesOf(blocks[j], names[k]) == []
  {
    forall j | 0 <= j < |blocks| && j != k
      ensures RulesOf(blocks[j], names[k]) == []
    {
      assert names[j] != names[k];
    }
  }

  /** Well-shaped blocks of distinct groups, flattened: the rules of group
      `names[k]` are those of block `k`. */
  lemma FlattenRulesOfGroup(blocks: seq<seq<Resource>>, names: seq<string>, k: nat)
    requires |blocks| == |names| && Distinct(names) && k < |names|
    requires forall j :: 0 <= j < |blocks| ==> BlockShape(blocks[j], names[j])
    ensures |blocks[k]| > 0 && RulesOf(Flatten(blocks), names[k]) == blocks[k][1..]
  {
    BlocksLayout(blocks, names, names[k]);
    OnlyOwnBlock(blocks, names, k);
    FlattenRulesAt(blocks, k, names[k], blocks[k][1..]);
  }

  /** Well-shaped blocks, flattened, hold no rules of a name that owns no
      block. */
  lemma FlattenRulesOfOther(blocks: seq<seq<Resource>>, names: seq<string>, sgName: string)
    requires |blocks| == |names| && sgName !in names
    requires forall j :: 0 <= j < |blocks| ==> BlockShape(blocks[j], names[j])
    ensures RulesOf(Flatten(blocks), sgName) == []
  {
    BlocksLayout(blocks, names, sgName);
    FlattenNoRules(blocks, sgName);
  }

  /** Every block of the named groups is well shaped. */
  lemma BlocksShaped(ctx: Context, config: map<string, GroupConfig>, names: seq<string>)
    requires forall i :: 0 <= i < |names| ==> names[i] in config
    requires GroupBlocks(ctx, config, names).Success?
    ensures var blocks := GroupBlocks(ctx, config, names).value;
      forall k :: 0 <= k < |blocks| ==> BlockShape(blocks[k], names[k])
  {
    var blocks := GroupBlocks(ctx, config, names).value;
    forall k | 0 <= k < |blocks|
      ensures BlockShape(blocks[k], names[k])
    {
      GroupResourcesShape(ctx, names[k], config[names[k]]);
    }
  }

  /** A successful template holds the flattened blocks of its groups, the
      groups being the distinct keys of the configuration, each block being
      that group's resources. */
  lemma TemplateParts(ctx: Context, config: map<string, GroupConfig>)
      returns (names: seq<string>, blocks: seq<seq<Resource>>)
    requires BuildTemplate(ctx, config).Success?
    ensures |blocks| == |names| && Distinct(names)
    ensures forall name :: name in config <==> name in names
    ensures forall k :: 0 <= k < |names| ==>
      && names[k] in config
      && GroupResources(ctx, names[k], config[names[k]]).Success?
      && blocks[k] == GroupResources(ctx, names[k], config[names[k]]).value
    ensures forall k :: 0 <= k < |blocks| ==> BlockShape(blocks[k], names[k])
    ensures BuildTemplate(ctx, config).value == Template(Flatten(blocks), names)
  {
    names := SortedNames(config.Keys);
    SortedGroupsOk(config, names);
    blocks := GroupBlocks(ctx, config, names).value;
    BlocksShaped(ctx, config, names);
  }

  /** The emitted template lists the group resources in the same order as
      the outputs. */
  lemma TemplateGroupOrder(ctx: Context, config: map<string, GroupConfig>)
    requires BuildTemplate(ctx, config).Success?
    ensures var t := BuildTemplate(ctx, config).value;
      GroupNamesOf(t.resources) == t.outputs
  {
    var names, blocks := TemplateParts(ctx, config);
    BlocksLayout(blocks, names, "");
    FlattenNames(blocks, names);
  }

  /** In the emitted template each group's rules are exactly its ingress
      rules followed by its egress rules, each list in configuration order;
      a name that is not a group has no rules. */
  lemma TemplateRules(ctx: Context, config: map<string, GroupConfig>, sgName: string)
    requires BuildTemplate(ctx, config).Success?
    ensures sgName in config ==>
      && GroupOk(config[sgName])
      && RulesInOrder(RulesOf(BuildTemplate(ctx, config).value.resources, sgName), sgName, config[sgName])
    ensures sgName !in config ==> RulesOf(BuildTemplate(ctx, config).value.resources, sgName) == []
  {
    TemplateRulesOfGroup(ctx, config, sgName);
    if sgName in config {
      GroupRulesInOrder(ctx, sgName, config[sgName]);
    }
  }

  /** The template's rules of a group are the rules of that group's block. */
  lemma TemplateRulesOfGroup(ctx: Context, config: map<string, GroupConfig>, sgName: string)
    requires BuildTemplate(ctx, config).Success?
    ensures sgName in config ==>
      && GroupResources(ctx, sgName, config[sgName]).Success?
      && RulesOf(BuildTemplate(ctx, config).value.resources, sgName)
         == GroupResources(ctx, sgName, config[sgName]).value[1..]
    ensures sgName !in config ==> RulesOf(BuildTemplate(ctx, config).value.resources, sgName) == []
  {
    var names, blocks := TemplateParts(ctx, config);
    if sgName in config {
      var k :| 0 <= k < |names| && names[k] == sgName;
      FlattenRulesOfGroup(blocks, names, k);
      assert blocks[k] == GroupResources(ctx, sgName, config[sgName]).value;
    } else {
      FlattenRulesOfOther(blocks, names, sgName);
    }
  }


}

=== FILE: strings.dfy ===
/** Python string primitives the helpers and templates rely on:
    `sep.join`, `str.split` with an explicit one-character separator, and
    the code-point order that `sorted()` uses on strings, with a sort of a
    finite set of names.
 */
module Strings {

  // ---------------------------------------------------------------------------
  // sep.join(xs)
  // ---------------------------------------------------------------------------

  /** The items joined with `sep` between neighbours (Python's `sep.join`). */
  function Join(sep: string, xs: seq<string>): string
    decreases |xs|
  {
    if |xs| == 0 then ""
    else if |xs| == 1 then xs[0]
    else Join(sep, xs[..|xs| - 1]) + sep + xs[|xs| - 1]
  }

  /** Total length of the items. */
  function SumLengths(xs: seq<string>): nat
    decreases |xs|
  {
    if |xs| == 0 then 0 else SumLengths(xs[..|xs| - 1]) + |xs[|xs| - 1]|
  }

  /** A join of n items has the items' total length plus n - 1 separators. */
  lemma {:induction false} JoinLength(sep: string, xs: seq<string>)
    requires |xs| > 0
    ensures |Join(sep, xs)| == SumLengths(xs) + (|xs| - 1) * |sep|
    decreases |xs|
  {
    if |xs| > 1 {
      var front := xs[..|xs| - 1];
      JoinLength(sep, front);
      var k := |front| - 1;
      assert (k + 1) * |sep| == k * |sep| + |sep|;
    }
  }

  /** Peeling the first item off a join: the dual of the definition, which
      peels the last one. */
  lemma {:induction false} JoinCons(sep: string, x: string, xs: seq<string>)
    requires |xs| > 0
    ensures Join(sep, [x] + xs) == x + sep + Join(sep, xs)
    decreases |xs|
  {
    if |xs| > 1 {
      var front := xs[..|xs| - 1];
      var last := xs[|xs| - 1];
      var whole := [x] + xs;
      assert whole[..|whole| - 1] == [x] + front;
      assert whole[|whole| - 1] == last;
      assert Join(sep, whole) == Join(sep, [x] + front) + sep + last;
      JoinCons(sep, x, front);
      assert Join(sep, xs) == Join(sep, front) + sep + last;
    }
  }

  /** The separator never leads or trails: a non-empty join starts with its
      first item and ends with its last item. */
  lemma {:induction false} JoinEnds(sep: string, xs: seq<string>)
    requires |xs| > 0
    ensures |xs[0]| <= |Join(sep, xs)| && Join(sep, xs)[..|xs[0]|] == xs[0]
    ensures |xs[|xs| - 1]| <= |Join(sep, xs)|
    ensures Join(sep, xs)[|Join(sep, xs)| - |xs[|xs| - 1]|..] == xs[|xs| - 1]
    decreases |xs|
  {
    if |xs| > 1 {
      var front := xs[..|xs| - 1];
      JoinEnds(sep, front);
      assert front[0] == xs[0];
      var j := Join(sep, front);
      assert Join(sep, xs) == j + sep + xs[|xs| - 1];
      assert (j + sep + xs[|xs| - 1])[..|xs[0]|] == j[..|xs[0]|];
    }
  }

  /** Appending one item: the definition read left to right. */
  lemma JoinSnoc(sep: string, xs: seq<string>, x: string)
    ensures Join(sep, xs + [x]) == if |xs| == 0 then x else Join(sep, xs) + sep + x
  {
    assert (xs + [x])[..|xs|] == xs;
  }

  // ---------------------------------------------------------------------------
  // str.split(c)
  // ---------------------------------------------------------------------------

  /** `s.split(c)`: the maximal runs between occurrences of `c`, empty runs
      included, so there is always at least one part. */
  function Split(s: string, c: char): (r: seq<string>)
    ensures |r| >= 1
    ensures forall i :: 0 <= i < |r| ==> c !in r[i]
    ensures forall i, x :: 0 <= i < |r| && x in r[i] ==> x in s
    decreases |s|
  {
    if |s| == 0 then [""]
    else
      var rest := Split(s[1..], c);
      assert forall x :: x in s[1..] ==> x in s;
      if s[0] == c then [""] + rest
      else [[s[0]] + rest[0]] + rest[1..]
  }

  /** Joining the parts of a split with the separator gives the string back. */
  lemma {:induction false} SplitThenJoin(s: string, c: char)
    ensures Join([c], Split(s, c)) == s
    decreases |s|
  {
    if |s| > 0 {
      var rest := Split(s[1..], c);
      SplitThenJoin(s[1..], c);
      if s[0] == c {
        JoinCons([c], "", rest);
        assert s == [c] + s[1..];
      } else if |rest| == 1 {
        assert Split(s, c) == [[s[0]] + rest[0]];
        assert s == [s[0]] + s[1..];
      } else {
        var tail := rest[1..];
        var part := [s[0]] + rest[0];
        assert rest == [rest[0]] + tail;
        assert Split(s, c) == [part] + tail;
        JoinCons([c], rest[0], tail);
        JoinCons([c], part, tail);
        assert s == [s[0]] + s[1..];
      }
    }
  }

  /** A string without the separator splits into itself. */
  lemma {:induction false} SplitNoSeparator(s: string, c: char)
    requires c !in s
    ensures Split(s, c) == [s]
    decreases |s|
  {
    if |s| > 0 {
      assert c !in s[1..] by {
        forall i | 0 <= i < |s[1..]|
          ensures s[1..][i] != c
        {
          assert s[1..][i] == s[i + 1];
        }
      }
      SplitNoSeparator(s[1..], c);
      assert [s[0]] + s[1..] == s;
    }
  }

  /** A separator-free prefix followed by the separator is split off as the
      first part. */
  lemma {:induction false} SplitAfterPart(x: string, c: char, y: string)
    requires c !in x
    ensures Split(x + [c] + y, c) == [x] + Split(y, c)
    decreases |x|
  {
    var s := x + [c] + y;
    if |x| == 0 {
      assert s[1..] == y;
    } else {
      assert s[1..] == x[1..] + [c] + y;
      assert c !in x[1..] by {
        forall i | 0 <= i < |x[1..]|
          ensures x[1..][i] != c
        {
          assert x[1..][i] == x[i + 1];
        }
      }
      SplitAfterPart(x[1..], c, y);
      assert [x[0]] + x[1..] == x;
    }
  }

  /** Splitting a join of separator-free parts gives the parts back. */
  lemma {:induction false} JoinThenSplit(parts: seq<string>, c: char)
    requires |parts| > 0
    requires forall i :: 0 <= i < |parts| ==> c !in parts[i]
    ensures Split(Join([c], parts), c) == parts
    decreases |parts|
  {
    if |parts| == 1 {
      SplitNoSeparator(parts[0], c);
    } else {
      var tail := parts[1..];
      assert parts == [parts[0]] + tail;
      JoinCons([c], parts[0], tail);
      JoinThenSplit(tail, c);
      SplitAfterPart(parts[0], c, Join([c], tail));
    }
  }

  // ---------------------------------------------------------------------------
  // Code-point order of strings and sorted()
  // ---------------------------------------------------------------------------

  /** `a <= b` on Python strings: lexicographic by code point, a proper
      prefix first. */
  predicate StrLe(a: string, b: string)
    decreases |a|
  {
    |a| == 0 || (|b| > 0 && (a[0] < b[0] || (a[0] == b[0] && StrLe(a[1..], b[1..]))))
  }

  lemma {:induction false} StrLeReflexive(a: string)
    ensures StrLe(a, a)
    decreases |a|
  {
    if |a| > 0 {
      StrLeReflexive(a[1..]);
    }
  }

  lemma {:induction false} StrLeTotal(a: string, b: string)
    ensures StrLe(a, b) || StrLe(b, a)
    decreases |a|
  {
    if |a| > 0 && |b| > 0 && a[0] == b[0] {
      StrLeTotal(a[1..], b[1..]);
    }
  }

  lemma {:induction false} StrLeAntisymmetric(a: string, b: string)
    requires StrLe(a, b) && StrLe(b, a)
    ensures a == b
    decreases |a|
  {
    if |a| > 0 {
      StrLeAntisymmetric(a[1..], b[1..]);
      assert a == [a[0]] + a[1..] && b == [b[0]] + b[1..];
    }
  }

  lemma {:induction false} StrLeTransitive(a: string, b: string, c: string)
    requires StrLe(a, b) && StrLe(b, c)
    ensures StrLe(a, c)
    decreases |a|
  {
    if |a| > 0 && a[0] == b[0] && b[0] == c[0] {
      StrLeTransitive(a[1..], b[1..], c[1..]);
    }
  }

  /** `m` is the smallest name of `s`. */
  predicate IsLeast(m: string, s: set<string>) {
    m in s && forall k :: k in s ==> StrLe(m, k)
  }

  lemma {:induction false} LeastExists(s: set<string>)
    requires s != {}
    ensures exists m :: IsLeast(m, s)
    decreases |s|
  {
    var x :| x in s;
    if s != {x} {
      var rest := s - {x};
      LeastExists(rest);
      var m :| IsLeast(m, rest);
      StrLeTotal(m, x);
      if StrLe(m, x) {
        assert IsLeast(m, s);
      } else {
        forall k | k in s
          ensures StrLe(x, k)
        {
          if k == x {
            StrLeReflexive(x);
          } else {
            StrLeTransitive(x, m, k);
          }
        }
        assert IsLeast(x, s);
      }
    } else {
      StrLeReflexive(x);
      assert IsLeast(x, s);
    }
  }

  lemma LeastUnique(s: set<string>)
    ensures forall a, b :: IsLeast(a, s) && IsLeast(b, s) ==> a == b
  {
    forall a, b | IsLeast(a, s) && IsLeast(b, s)
      ensures a == b
    {
      StrLeAntisymmetric(a, b);
    }
  }

  /** Strictly increasing in code-point order (so also free of duplicates). */
  predicate StrictlySorted(xs: seq<string>) {
    forall i, j :: 0 <= i < j < |xs| ==> StrLe(xs[i], xs[j]) && xs[i] != xs[j]
  }

  /** `sorted(s)` for a set of names: every name once, in increasing order. */
  function SortedNames(s: set<string>): (r: seq<string>)
    ensures |r| == |s|
    ensures forall k :: k in s <==> k in r
    ensures StrictlySorted(r)
    decreases |s|
  {
    if s == {} then []
    else
      LeastExists(s);
      LeastUnique(s);
      var m :| IsLeast(m, s);
      var rest := SortedNames(s - {m});
      PrependLeast(m, s, rest);
      [m] + rest
  }

  /** The least name of a set, put in front of the rest of the set in
      strictly increasing order, keeps the order strict. */
  lemma PrependLeast(m: string, s: set<string>, rest: seq<string>)
    requires IsLeast(m, s)
    requires forall k :: k in s - {m} <==> k in rest
    requires StrictlySorted(rest)
    ensures StrictlySorted([m] + rest)
  {
    var r := [m] + rest;
    forall i, j | 0 <= i < j < |r|
      ensures StrLe(r[i], r[j]) && r[i] != r[j]
    {
      if i == 0 {
        assert r[j] == rest[j - 1] && r[j] in rest;
      } else {
        assert r[i] == rest[i - 1] && r[j] == rest[j - 1];
      }
    }
  }
}

=== FILE: utils.dfy ===
/** String and mapping helpers of the `aim.utils` package: the recursive
    merge of nested dictionaries, fixed-width padding, separator joins and
    the action-log line.
 */
module Utils {
  import opened Wrappers
  import opened Strings

  /** The `StackException` `str_spc` raises for a string longer than the field. */
  datatype PadError = PaddingTooSmall(length: nat, size: int)

  /** The exception `big_join` raises at item `index`: the `TypeError` of a
      `None` item that is not skipped, or the `IndexError` of capitalising an
      empty item. */
  datatype JoinError = NoneItem(index: nat) | EmptyItem(index: nat)

  // ---------------------------------------------------------------------------
  // dict_of_dicts_merge
  // ---------------------------------------------------------------------------

  /** A configuration value: a mapping (anything with `keys`) or any other
      value, which the merge treats as an opaque leaf. */
  datatype Value = Scalar(text: string) | Dict(entries: map<string, Value>)

  /** `dict_of_dicts_merge(x, y)`: when both sides are mappings, keys of both
      are kept and overlapping keys are merged recursively; otherwise `y`. */
  function Merge(x: Value, y: Value): (r: Value)
    ensures !(x.Dict? && y.Dict?) ==> r == y
    ensures x.Dict? && y.Dict? ==>
      && r.Dict?
      && r.entries.Keys == x.entries.Keys + y.entries.Keys
      && (forall k :: k in x.entries && k !in y.entries ==> r.entries[k] == x.entries[k])
      && (forall k :: k in y.entries && k !in x.entries ==> r.entries[k] == y.entries[k])
    decreases x
  {
    if x.Dict? && y.Dict? then
      Dict(map k | k in x.entries.Keys + y.entries.Keys ::
        if k in x.entries && k in y.entries then Merge(x.entries[k], y.entries[k])
        else if k in x.entries then x.entries[k]
        else y.entries[k])
    else
      y
  }

  /** The value reached by following `path` key by key, if every step exists. */
  function Lookup(v: Value, path: seq<string>): Option<Value>
    decreases |path|
  {
    if |path| == 0 then Some(v)
    else if v.Dict? && path[0] in v.entries then Lookup(v.entries[path[0]], path[1..])
    else None
  }

  /** An overlapping key holds the merge of the two sides' values. */
  lemma MergeOverlap(x: Value, y: Value, k: string)
    requires x.Dict? && y.Dict? && k in x.entries && k in y.entries
    ensures Merge(x, y).Dict? && k in Merge(x, y).entries
    ensures Merge(x, y).entries[k] == Merge(x.entries[k], y.entries[k])
  {
  }

  /** The right side wins at every leaf: whatever non-mapping value `y` holds
      at a path, the merge holds at the same path. */
  lemma {:induction false} MergeRightWinsAtLeaves(x: Value, y: Value, path: seq<string>)
    requires Lookup(y, path).Some? && !Lookup(y, path).value.Dict?
    ensures Lookup(Merge(x, y), path) == Lookup(y, path)
    decreases |path|
  {
    if |path| == 0 {
    } else if x.Dict? && y.Dict? {
      var k := path[0];
      if k in x.entries {
        MergeRightWinsAtLeaves(x.entries[k], y.entries[k], path[1..]);
      }
    }
  }

  /** Merging a value with itself gives it back unchanged. */
  lemma {:induction false} MergeIdempotent(x: Value)
    ensures Merge(x, x) == x
    decreases x
  {
    if x.Dict? {
      var m := Merge(x, x);
      forall k | k in x.entries
        ensures m.entries[k] == x.entries[k]
      {
        MergeIdempotent(x.entries[k]);
      }
      assert m.entries == x.entries;
    }
  }

  // ---------------------------------------------------------------------------
  // str_spc
  // ---------------------------------------------------------------------------

  /** `str_spc(s, size)`: right-pads `s` with spaces to exactly `size`
      characters; a string longer than `size` is an error. */
  method StrSpc(s: string, size: int) returns (r: Result<string, PadError>)
    ensures r.Failure? <==> |s| > size
    ensures r.Failure? ==> r.error == PaddingTooSmall(|s|, size)
    ensures r.Success? ==>
      && |r.value| == size
      && r.value[..|s|] == s
      && forall i :: |s| <= i < size ==> r.value[i] == ' '
  {
    if |s| > size {
      return Failure(PaddingTooSmall(|s|, size));
    }
    var padded := s;
    var i := 0;
    while i < size - |s|
      invariant 0 <= i <= size - |s|
      invariant |padded| == |s| + i
      invariant padded[..|s|] == s
      invariant forall j :: |s| <= j < |padded| ==> padded[j] == ' '
    {
      padded := padded + " ";
      i := i + 1;
    }
    return Success(padded);
  }

  // ---------------------------------------------------------------------------
  // Joins: big_join and list_to_comma_string
  // ---------------------------------------------------------------------------

  /** ASCII upper-casing of one character (`str.upper` on a letter a-z). */
  function UpperChar(c: char): char {
    if 'a' <= c <= 'z' then (c as int - 'a' as int + 'A' as int) as char else c
  }

  /** `s[0].upper() + s[1:]`. */
  function Capitalize(s: string): (r: string)
    requires |s| > 0
    ensures |r| == |s| && r[0] == UpperChar(s[0]) && r[1..] == s[1..]
  {
    [UpperChar(s[0])] + s[1..]
  }

  /** An item on which `big_join` raises: `None` when `None`s are not skipped,
      or an empty string when it must be capitalised. */
  predicate Offends(item: Option<string>, camelCase: bool, noneValueOk: bool) {
    || (item.None? && !noneValueOk)
    || (item.Some? && camelCase && |item.value| == 0)
  }

  /** None of the first `n` items makes `big_join` raise. */
  predicate NoneOffendUpTo(items: seq<Option<string>>, n: nat, camelCase: bool, noneValueOk: bool) {
    forall j :: 0 <= j < n && j < |items| ==> !Offends(items[j], camelCase, noneValueOk)
  }

  /** Every present item among the first `n` can be capitalised when camel
      case is asked for. */
  predicate CapitalizableUpTo(items: seq<Option<string>>, n: nat, camelCase: bool) {
    forall j :: 0 <= j < n && j < |items| ==> items[j].Some? && camelCase ==> |items[j].value| > 0
  }

  /** The text one present item contributes to the join. */
  function EmitOne(x: string, camelCase: bool): string
    requires camelCase ==> |x| > 0
  {
    if camelCase then Capitalize(x) else x
  }

  /** The text `big_join` emits for the first `n` items: `None`s dropped,
      each remaining item capitalised under camel case. */
  function EmittedUpTo(items: seq<Option<string>>, n: nat, camelCase: bool): (r: seq<string>)
    requires n <= |items| && CapitalizableUpTo(items, n, camelCase)
    ensures |r| <= n
    decreases n
  {
    if n == 0 then []
    else
      var item := items[n - 1];
      EmittedUpTo(items, n - 1, camelCase) + (if item.None? then [] else [EmitOne(item.value, camelCase)])
  }

  /** The text `big_join` emits for all the items. */
  function Emitted(items: seq<Option<string>>, camelCase: bool): seq<string>
    requires CapitalizableUpTo(items, |items|, camelCase)
  {
    EmittedUpTo(items, |items|, camelCase)
  }

  lemma {:induction false} EmittedPlainUpTo(items: seq<Option<string>>, n: nat)
    requires n <= |items|
    requires forall j :: 0 <= j < |items| ==> items[j].Some?
    ensures |EmittedUpTo(items, n, false)| == n
    ensures forall i :: 0 <= i < n ==> EmittedUpTo(items, n, false)[i] == items[i].value
    decreases n
  {
    if n > 0 {
      EmittedPlainUpTo(items, n - 1);
    }
  }

  /** With no `None` items and no camel case every item is emitted as is. */
  lemma EmittedPlain(items: seq<Option<string>>)
    requires forall j :: 0 <= j < |items| ==> items[j].Some?
    ensures |Emitted(items, false)| == |items|
    ensures forall i :: 0 <= i < |items| ==> Emitted(items, false)[i] == items[i].value
  {
    EmittedPlainUpTo(items, |items|);
  }

  lemma {:induction false} EmittedCamelUpTo(items: seq<Option<string>>, n: nat)
    requires n <= |items| && CapitalizableUpTo(items, n, true)
    ensures |EmittedUpTo(items, n, true)| == |EmittedUpTo(items, n, false)|
    ensures forall i :: 0 <= i < |EmittedUpTo(items, n, false)| ==>
      |EmittedUpTo(items, n, false)[i]| > 0 &&
      EmittedUpTo(items, n, true)[i] == Capitalize(EmittedUpTo(items, n, false)[i])
    decreases n
  {
    if n > 0 {
      EmittedCamelUpTo(items, n - 1);
    }
  }

  /** Camel case emits the same items in the same order, each capitalised. */
  lemma EmittedCamel(items: seq<Option<string>>)
    requires CapitalizableUpTo(items, |items|, true)
    ensures |Emitted(items, true)| == |Emitted(items, false)|
    ensures forall i :: 0 <= i < |Emitted(items, false)| ==>
      |Emitted(items, false)[i]| > 0 && Emitted(items, true)[i] == Capitalize(Emitted(items, false)[i])
  {
    EmittedCamelUpTo(items, |items|);
  }

  /** One item of `big_join`'s loop: a `None` leaves the text and the
      first-item flag as they are; a present item is appended, after a
      separator unless it is the first, and clears the flag. Either way the
      text is the join of what has been emitted so far. */
  lemma EmitStep(items: seq<Option<string>>, i: nat, sep: string, camelCase: bool,
                 out: string, first: bool, out': string, first': bool)
    requires i < |items| && CapitalizableUpTo(items, i + 1, camelCase)
    requires first <==> |EmittedUpTo(items, i, camelCase)| == 0
    requires out == Join(sep, EmittedUpTo(items, i, camelCase))
    requires items[i].None? ==> out' == out && first' == first
    requires items[i].Some? ==>
      out' == (if first then out else out + sep) + EmitOne(items[i].value, camelCase) && !first'
    ensures first' <==> |EmittedUpTo(items, i + 1, camelCase)| == 0
    ensures out' == Join(sep, EmittedUpTo(items, i + 1, camelCase))
  {
    var prev := EmittedUpTo(items, i, camelCase);
    if items[i].Some? {
      var text := EmitOne(items[i].value, camelCase);
      assert EmittedUpTo(items, i + 1, camelCase) == prev + [text];
      JoinSnoc(sep, prev, text);
    } else {
      assert EmittedUpTo(items, i + 1, camelCase) == prev;
    }
  }

  /** The body of `big_join`'s loop for an item that does not offend: emits it
      unless it is `None`. */
  method EmitNext(items: seq<Option<string>>, i: nat, sep: string, camelCase: bool, out: string, first: bool)
    returns (out': string, first': bool)
    requires i < |items| && CapitalizableUpTo(items, i + 1, camelCase)
    requires first <==> |EmittedUpTo(items, i, camelCase)| == 0
    requires out == Join(sep, EmittedUpTo(items, i, camelCase))
    ensures first' <==> |EmittedUpTo(items, i + 1, camelCase)| == 0
    ensures out' == Join(sep, EmittedUpTo(items, i + 1, camelCase))
  {
    out', first' := out, first;
    if items[i].Some? {
      out' := (if first then out else out + sep) + EmitOne(items[i].value, camelCase);
      first' := false;
    }
    EmitStep(items, i, sep, camelCase, out, first, out', first');
  }

  /** `big_join(items, sep, camel_case, none_value_ok)`: joins the items with
      `sep`, dropping `None` items (and their separator) when
      `none_value_ok`, and capitalising each item when `camel_case`. It
      fails at the first item it cannot handle. */
  method BigJoin(items: seq<Option<string>>, sep: string, camelCase: bool, noneValueOk: bool)
    returns (r: Result<string, JoinError>)
    ensures r.Success? <==> forall j :: 0 <= j < |items| ==> !Offends(items[j], camelCase, noneValueOk)
    ensures r.Failure? ==>
      && r.error.index < |items|
      && Offends(items[r.error.index], camelCase, noneValueOk)
      && (forall j :: 0 <= j < r.error.index ==> !Offends(items[j], camelCase, noneValueOk))
      && (r.error.NoneItem? <==> items[r.error.index].None?)
    ensures r.Success? ==>
      CapitalizableUpTo(items, |items|, camelCase) && r.value == Join(sep, Emitted(items, camelCase))
  {
    var out := "";
    var first := true;
    var i := 0;
    while i < |items|
      invariant 0 <= i <= |items|
      invariant NoneOffendUpTo(items, i, camelCase, noneValueOk)
      invariant CapitalizableUpTo(items, i, camelCase)
      invariant first <==> |EmittedUpTo(items, i, camelCase)| == 0
      invariant out == Join(sep, EmittedUpTo(items, i, camelCase))
    {
      var item := items[i];
      if Offends(item, camelCase, noneValueOk) {
        return Failure(if item.None? then NoneItem(i) else EmptyItem(i));
      }
      assert CapitalizableUpTo(items, i + 1, camelCase);
      out, first := EmitNext(items, i, sep, camelCase, out, first);
      i := i + 1;
    }
    return Success(out);
  }

  /** `list_to_comma_string(items)`: the items separated by commas, `""` for
      an empty list. */
  method ListToCommaString(items: seq<string>) returns (r: string)
    ensures |items| == 0 ==> r == ""
    ensures r == Join(",", items)
  {
    var comma := "";
    r := "";
    var i := 0;
    while i < |items|
      invariant 0 <= i <= |items|
      invariant comma == if i == 0 then "" else ","
      invariant r == Join(",", items[..i])
    {
      assert items[..i + 1][..i] == items[..i];
      r := r + comma + items[i];
      comma := ",";
      i := i + 1;
    }
    assert items[..i] == items;
  }

  // ---------------------------------------------------------------------------
  // log_action
  // ---------------------------------------------------------------------------

  const DisabledPrefix: string := "! Disabled: "

  /** `log_action(action, message, return_it, enabled)`: with `return_it` the
      log line is returned; otherwise it is printed and `None` is returned. */
  function LogAction(action: string, message: string, returnIt: bool, enabled: bool): (r: Option<string>)
    ensures r.Some? <==> returnIt
    ensures r.Some? ==>
      && |r.value| == |action| + 2 + |message| + (if enabled then 0 else |DisabledPrefix|)
      && r.value[|r.value| - |message| - 2..] == ": " + message
      && (enabled ==> r.value[..|action|] == action)
      && (!enabled ==> r.value[..|DisabledPrefix|] == DisabledPrefix)
  {
    var line := action + ": " + message;
    var logged := if enabled then line else DisabledPrefix + line;
    if returnIt then Some(logged) else None
  }

  /** A disabled action logs the enabled line behind the "! Disabled: "
      marker, and nothing else changes. */
  lemma LogActionDisabledMarks(action: string, message: string)
    ensures LogAction(action, message, true, false).value
         == DisabledPrefix + LogAction(action, message, true, true).value
  {
    assert DisabledPrefix + (action + ": " + message) == DisabledPrefix + action + ": " + message;
  }
}

=== FILE: wrappers.dfy ===
/** Failure-compatible result types shared by every module of the model.

    A Python function of the modelled code either returns a value or raises
    an exception; the model returns `Success(value)` or `Failure(error)`
    instead, and `Option` stands for a value that may be Python's `None`.
 */
module Wrappers {

  datatype Option<+T> = None | Some(value: T) {

    predicate IsFailure() {
      None?
    }

    function PropagateFailure<U>(): Option<U>
      requires None?
    {
      None
    }

    function Extract(): T
      requires Some?
    {
      value
    }
  }

  datatype Result<+R, +E> = Success(value: R) | Failure(error: E) {

    predicate IsFailure() {
      Failure?
    }

    function PropagateFailure<U>(): Result<U, E>
      requires Failure?
    {
      Failure(error)
    }

    function Extract(): R
      requires Success?
    {
      value
    }
  }
}
